=== FILE: README.md ===
# github-gitlab-issue-sync: a verified model of the issue mirror

`Migration` (migration_lib.py) mirrors one GitHub issue and its comments
onto a GitLab issue. It keeps no database. Identity across the two trackers
lives in marker lines inside comment bodies:

- a GitHub comment `gitlab-issue-id:<iid>` links the GitHub issue to its GitLab issue;
- every mirrored GitLab note ends with `github-comment-id:<id>`.

This project models, as pure Dafny functions over sequences and strings:

- the constructor's settings check;
- the issue listing with its pull-request filter;
- the three paging loops;
- the linkage scan;
- the description and announcement texts;
- the correspondence map read back from the GitLab notes;
- the canonical mirrored-note body;
- the per-comment plan and its execution.

Every HTTP read is an input: a finite sequence of pages. Every write is an
output: a `Call` value. The project then proves that the mirror is
idempotent. Once a run has completed, a second run over unchanged comments
still reads the issue, its comments and the notes, but sends no POST or PUT.

Modules, in dependency order:

| file | module | contents |
|---|---|---|
| wrappers.dfy | `Wrappers` | `Option`, `Result` |
| text.dfy | `Text` | `split("\n")`, CR removal, CR LF replacement, decimal ids, `upper()` |
| markers.dfy | `Markers` | the two marker prefixes and `re.match(prefix + r"(\d+)", line)` |
| paging.dfy | `Paging` | the paging fold and `get_github_issues` |
| config.dfy | `Config` | `Migration.__init__` |
| linkage.dfy | `Linkage` | steps 3-4 of `sync_github_issue`: scan, description, announcement |
| reconcile.dfy | `Reconcile` | steps 5-6: correspondence map, canonical body, plan, execution |
| idempotence.dfy | `Idempotence` | the destination after a run, and the quiet second run |
| sync.dfy | `Sync` | the whole of `sync_github_issue` and its end-to-end properties |

Two behaviours of the code are easy to misread:

- **Linkage scan.** The `break` at migration_lib.py:96 leaves only the loop over one comment's lines. So the last comment with a marker line decides, using the first marker line inside it (`Linkage.ResolveLastMarked`).
- **Correspondence map.** The loop at migration_lib.py:144-150 has no `break`: every marker line of every note binds its key, and later ones overwrite earlier ones (`Reconcile.CorrespondenceLast`).

## Model

| member | source | states |
|---|---|---|
| `Config.NewMigration` | migration_lib.py:10-23 | Construction succeeds exactly when all six settings are present and non-empty, and it then keeps them. A failure's message is `<name> must be provided as arg or env variable <NAME>` for the first missing setting in the order github_org, github_repo, github_token, gitlab_domain, gitlab_project, gitlab_token. |
| `Config.FirstMissing` | migration_lib.py:20-22 | The position found is missing, and every earlier value is present. None is found exactly when all values are present. |
| `Config.TokenReportedBeforeDomain` | migration_lib.py:20-23 | The test order is not the argument order. With both the domain and the GitHub token missing, the error names github_token. |
| `Config.MissingMessages` | migration_lib.py:20-23 | Each of the six messages is the setting name, ` must be provided as arg or env variable `, then the name in capitals, e.g. `GITLAB_PROJECT`. |
| `Text.LinesJoin` | migration_lib.py:91 | `split("\n")` yields pieces without a newline that join back, with newlines, to the original text. |
| `Text.StripCR` | migration_lib.py:181 | The result has no CR, and a text without CR is returned unchanged. |
| `Text.StripCRSplits` | migration_lib.py:181 | Each CR is deleted and the texts around it are kept. With the row above this fixes `replace('\r', '')` on every input. |
| `Text.ReplaceCRLFKeepsText` | migration_lib.py:106 | Replacing CR LF by LF changes nothing but carriage returns. |
| `Text.ReplaceCRLFNoCR` | migration_lib.py:106 | A text without CR is left unchanged by the CR LF replacement. |
| `Text.ReplaceCRLFNoPair` | migration_lib.py:106 | A text in which no CR is directly followed by LF is left unchanged. |
| `Text.ReplaceCRLFSplits` | migration_lib.py:106 | Each CR LF becomes one LF, and the texts before and after it are replaced on their own. With the row above this fixes `replace("\r\n", "\n")` on every input. |
| `Text.ParseIdString` | migration_lib.py:164-165 | The decimal value of `str(n)` is `n`; the code never parses ids back, and this fact serves only to prove `Text.IdStringInjective`. |
| `Text.IdStringInjective` | migration_lib.py:164-165 | Two ids print the same exactly when they are equal, so `str(id)` comparisons compare ids. |
| `Markers.MatchMarker` | migration_lib.py:92 | A line matches exactly when it starts with the prefix followed by a digit. The captured group is then the maximal digit run after the prefix, and trailing text is ignored. |
| `Markers.MatchMarkerOf` | migration_lib.py:146 | Conversely, prefix + digits + text not starting with a digit is matched, and exactly those digits are captured. |
| `Markers.MarkerLine` | migration_lib.py:159 | A written marker line `prefix<id>` is a single line that is recognised with the id's own digits. |
| `Markers.FirstMarker` | migration_lib.py:91-96 | The value of the first marker line of a comment. Nothing is found exactly when no line is a marker. |
| `Paging.FetchAllStopsAtFirstShortPage` | migration_lib.py:74-82 | The paging loop stops exactly when some page is short. It has then issued one request per page up to and including the first short page, every earlier page was full, and the result is their concatenation. |
| `Paging.FetchPaged` | migration_lib.py:131-139 | A tracker serving its items in full pages followed by one short page hands back exactly those items. |
| `Paging.PagedCount` | migration_lib.py:80-82 | Reading n items takes the k requests with (k-1)·size ≤ n < k·size. |
| `Paging.FullPageBoundary` | migration_lib.py:80-82 | Exactly one page-size of items costs two requests, the second answered with an empty page. |
| `Paging.ListIssues` | migration_lib.py:43-44 | A rejected listing reports a non-200 status. |
| `Paging.ListIssuesIsFilteredFetch` | migration_lib.py:34-55 | The listing succeeds exactly when the paging loop over the raw records stops and every requested page was answered with 200. Its numbers are then the filtered records of those pages, in order. The stop test counts unfiltered records. |
| `Paging.ListIssuesRejects` | migration_lib.py:39-44 | A failure reports the status of a page that the loop reached through full, accepted pages. |
| `Paging.KeepIssuesAppend` | migration_lib.py:47-50 | The filter acts on each record on its own, so it distributes over page concatenation. |
| `Paging.MissingUrlNeverListed` | migration_lib.py:49 | A record without `html_url` is never listed. |
| `Paging.IssueUrlsOnly` | migration_lib.py:49 | `…/issues/<n>` passes the filter. `…/pull/<n>` (a pull request) does not. |
| `Linkage.ScanFromAppend` | migration_lib.py:90-96 | Each comment's marker overrides whatever earlier comments produced. |
| `Linkage.ResolveUnlinked` | migration_lib.py:88-99 | The create path is taken exactly when no comment has a linkage marker line. |
| `Linkage.ResolveLastMarked` | migration_lib.py:90-96 | The scan yields the first marker of the last marker-bearing comment, together with that comment's id. |
| `Linkage.Description` | migration_lib.py:104-108 | The description is the body (null read as "") with every CR LF replaced by LF, followed by `\n\nGithub reference: <url>`. Up to carriage returns it is the body itself, and a body without CR is kept verbatim. |
| `Linkage.DescriptionReplacesCRLF` | migration_lib.py:104-108 | A CR LF in the source body reaches the description as one LF, and the text around it is carried over on its own. |
| `Linkage.AnnouncementLinks` | migration_lib.py:120 | The announcement `Created gitlab issue: <url>\ngitlab-issue-id:<iid>` is read back as `<iid>` when the URL is one line. |
| `Linkage.ResolveAfterAnnouncement` | migration_lib.py:117-124 | Once the announcement is the last comment, the scan resolves to the announced issue and names the announcement as the comment to skip. |
| `Reconcile.RecordLinesSpec` | migration_lib.py:145-150 | Within one note, every marker line binds its key to the note, and other keys keep their binding. |
| `Reconcile.RecordNotesKeys` | migration_lib.py:144-150 | Recording notes binds exactly the previous keys and the keys some note carries. |
| `Reconcile.RecordNotesUntouched` | migration_lib.py:144-150 | A key no note carries keeps its old binding. |
| `Reconcile.RecordNotesLast` | migration_lib.py:144-150 | A key ends up bound to the last note carrying it. |
| `Reconcile.CorrespondenceKeys` | migration_lib.py:142-150 | The map has key k exactly when some note has a `github-comment-id:k` line. Notes without a marker add nothing. |
| `Reconcile.CorrespondenceLast` | migration_lib.py:142-150 | Last wins: k maps to the body and id of the last note carrying it. |
| `Reconcile.CorrespondenceFrom` | migration_lib.py:142-150 | Every entry of the map comes from the last note carrying its key. |
| `Reconcile.CanonicalKeys` | migration_lib.py:154-160 | The mirrored body carries the comment's own id as a key. If the body, login and URL contain no mirror marker, that id is the only key. |
| `Reconcile.Decide` | migration_lib.py:163-191 | Skip exactly when the comment's id string equals str(excluded id). Create with the canonical body exactly when not skipped and the key is absent. Update with the mapped note id exactly when not skipped, the key is present and the bodies differ after deleting every CR. Otherwise up to date. |
| `Reconcile.Plan` | migration_lib.py:163-191 | Exactly one outcome per source comment, none dropped or added. |
| `Reconcile.ExecuteFrom` | migration_lib.py:163-191 | With every create accepted, all requests of the plan are issued in order. Otherwise everything up to and including the first rejected create is issued, and the run stops with that status. Updates are not checked. |
| `Idempotence.RewriteShape` | migration_lib.py:183-189 | After the updates, a note keeps its id. It is untouched, or has the body of an update aimed at it. |
| `Idempotence.RewriteOnce` | migration_lib.py:183-189 | A note aimed at by exactly one update ends with that update's body. |
| `Idempotence.NewNoteOrigin` | migration_lib.py:172-178 | Every created note has the body of some Create of the plan. |
| `Idempotence.NewNoteFor` | migration_lib.py:172-178 | Every Create of the plan yields a note with its body. |
| `Idempotence.NewNoteIds` | migration_lib.py:172-178 | Created notes are numbered consecutively from the next free id. |
| `Idempotence.QuietRequests` | migration_lib.py:163-191 | A plan issues no POST or PUT exactly when every comment is skipped or up to date. |
| `Idempotence.CreatedCase` | migration_lib.py:170-178 | A comment mirrored by a new note in run 1 maps, in run 2, to a note with its canonical body. |
| `Idempotence.ExistingCase` | migration_lib.py:170-189 | A comment already mirrored in run 1 maps, in run 2, to a note equal to its canonical body up to CRs. |
| `Idempotence.SecondPlanIsQuiet` | migration_lib.py:141-191 | Idempotence. After run 1's creates and updates are applied, run 2's plan over the same comments has no Create and no Update, in either listing order. |
| `Idempotence.SecondRunSendsNothing` | migration_lib.py:163-191 | Hence run 2's step 6 issues no POST and no PUT. |
| `Idempotence.CarrierBefore` | migration_lib.py:170-189 | An existing note that carries a key after run 1 already carried it before: an update only rewrites a note with the text of the key it had. |
| `Idempotence.CarrierCreated` | migration_lib.py:170-178 | A created note carrying a key mirrors the comment with that key, and no existing note carried that key. |
| `Idempotence.RunKeepsOneCarrier` | migration_lib.py:141-191 | A run never gives a key a second carrier: if at most one note carried a comment's marker before, at most one carries it after. |
| `Idempotence.RunKeepsTidy` | migration_lib.py:141-191 | A completed run keeps note ids distinct and one key per note, and every id stays below the next free id (`nextId` plus the number of created notes), so the idempotence hypotheses hold again for the next run. |
| `Idempotence.SharedNoteBreaksQuiet` | migration_lib.py:144-150 | Without one key per note, idempotence fails. A note carrying two comments' markers is updated twice, and run 2 creates a note again. |
| `Sync.ExecutionNoteCalls` | migration_lib.py:163-191 | Step 6 issues only note creates and note updates. Nothing is ever deleted. |
| `Sync.LinkedIssueOnlyTouchesNotes` | migration_lib.py:98-99 | A linked issue is reconciled against the linked destination issue, and no issue or source comment is created. |
| `Sync.UnlinkedIssueIsCreatedFirst` | migration_lib.py:99-125 | An unlinked issue first gets a destination issue with the source title and description. A reply without `iid` stops the run there, and a non-201 announcement stops it after the post. Otherwise, whatever the outcome (completed, a rejected note create, or a notes loop that never ends), the run's requests start with the issue create and the announcement and continue with note requests only. |
| `Sync.QuietExecution` | migration_lib.py:163-191 | A quiet plan completes without any POST or PUT. |
| `Sync.FirstRunCompletes` | migration_lib.py:57-191 | Run 1 on an unlinked issue with all requests accepted creates the issue, announces it, then issues the plan's requests, and reports the new iid. |
| `Sync.SecondRunIsQuiet` | migration_lib.py:57-191 | End to end: after that run, a run seeing the same comments plus the announcement, and the notes left by run 1, resolves the link and completes with no POST or PUT. |
| `Sync.LinkedFirstRun` | migration_lib.py:57-191 | Run 1 on an issue linked before it, with all requests accepted, reports the linked iid and issues only the plan's note requests. |
| `Sync.LinkedRerunIsQuiet` | migration_lib.py:57-191 | For such an issue, a rerun over the same comments and the notes run 1 left completes with no POST or PUT. |
| `Sync.RejectedAnnouncementRecreates` | migration_lib.py:99-123 | A rejected announcement fails the run after the issue was created. The next run's first request, whatever its outcome, creates the issue again. |

## Left out

- HTTP and JSON plumbing (`requests`, headers, URL building with `quote_plus`, `.json()`): reads are page sequences, writes are `Call` values, replies are parameters.
- Status checks the code does not make: reads other than the listing are never status-checked, and the PUT at migration_lib.py:183-189 is modelled as always issued.
- The notes request at migration_lib.py:132-133 sends no sort parameter, so the order in which the destination lists created notes is not fixed by the code; `Idempotence.Order` covers both oldest-first and newest-first.
- `print` narration; migrate.py (argument parsing); server.py (environment loading and a sleep loop that calls a method that does not exist).
- Python's `\d` also matches non-ASCII digits; the model accepts only ASCII `0`-`9`. Keys stay digit strings, so `007` does not match id 7.
- A null source-comment body raises at migration_lib.py:91 (`None.split`), after the reads at migration_lib.py:67 and 75-76 but before any POST. A comment without a `body` key reads as "" in the scan and raises at migration_lib.py:157 (text + None), after any issue create and announcement. Comment bodies are plain strings here.
- Null note bodies crash at migration_lib.py:145 before the `or ""` at line 181 could apply; note bodies are plain strings here.
- An `html_url` present but null crashes the listing filter at migration_lib.py:49; the model covers a present text or an absent field.
- A paging loop that never sees a short page does not terminate; within the finite page sequence given, it is reported as `Unending` / `Endless`. `Endless` keeps the requests issued before the loop.
- Idempotence.SecondPlanIsQuiet: also assumes unique source comment ids, no `github-comment-id:<digits>` line in any source comment's body, login or URL, unique note ids, and at most one mirror marker per existing note. Without the last, idempotence fails (`Idempotence.SharedNoteBreaksQuiet`).
- Idempotence.ApplyPlan: the destination is assumed to store every created or updated note body exactly as sent, and to number created notes `nextId`, `nextId + 1`, … above every id it holds (`Idempotence.NewNotes`, `Idempotence.IdsBelow`). `Idempotence.SecondPlanIsQuiet`, `Idempotence.RunKeepsTidy`, `Idempotence.RunKeepsOneCarrier` and `Sync.SecondRunIsQuiet` rest on this. A tracker that rewrites line endings of stored bodies is not covered, although the CR-insensitive comparison at migration_lib.py:181 exists for one.
- Sync.SecondRunIsQuiet: run 2's comment list is run 1's list with the announcement appended; comments posted or edited between runs are not covered.

=== FILE: config.dfy ===
/** Construction of a `Migration` (migration_lib.py:10-23): six settings,
    each of which must be present and non-empty. */
module Config {
  import opened Wrappers
  import opened Text

  /** The validated settings of one migration. */
  datatype Settings = Settings(
    githubOrg: string, githubRepo: string, githubToken: string,
    gitlabDomain: string, gitlabProject: string, gitlabToken: string)

  /** Python truthiness of a setting: `None` (an unset environment variable)
      and the empty text are both missing. */
  predicate Provided(v: Option<string>) {
    v.Some? && v.value != ""
  }

  /** Setting names in the order the constructor tests them. */
  const CheckOrder: seq<string> :=
    ["github_org", "github_repo", "github_token", "gitlab_domain", "gitlab_project", "gitlab_token"]

  /** The text of the exception raised for a missing setting `name`. */
  function MissingMessage(name: string): string {
    name + EnvHint + Upper(name)
  }

  /** The fixed middle of every such message. */
  const EnvHint: string := " must be provided as arg or env variable "

  /** The six exception texts, spelled out: each names the setting and its
      environment variable in capitals. */
  lemma MissingMessages()
    ensures MissingMessage(CheckOrder[0]) == "github_org" + EnvHint + "GITHUB_ORG"
    ensures MissingMessage(CheckOrder[1]) == "github_repo" + EnvHint + "GITHUB_REPO"
    ensures MissingMessage(CheckOrder[2]) == "github_token" + EnvHint + "GITHUB_TOKEN"
    ensures MissingMessage(CheckOrder[3]) == "gitlab_domain" + EnvHint + "GITLAB_DOMAIN"
    ensures MissingMessage(CheckOrder[4]) == "gitlab_project" + EnvHint + "GITLAB_PROJECT"
    ensures MissingMessage(CheckOrder[5]) == "gitlab_token" + EnvHint + "GITLAB_TOKEN"
  {
    assert Upper(CheckOrder[0]) == "GITHUB_ORG";
    assert Upper(CheckOrder[1]) == "GITHUB_REPO";
    assert Upper(CheckOrder[2]) == "GITHUB_TOKEN";
    assert Upper(CheckOrder[3]) == "GITLAB_DOMAIN";
    assert Upper(CheckOrder[4]) == "GITLAB_PROJECT";
    assert Upper(CheckOrder[5]) == "GITLAB_TOKEN";
  }

  /** Position of the first missing value, if any. */
  function FirstMissing(values: seq<Option<string>>): (r: Option<nat>)
    ensures r.None? <==> forall i :: 0 <= i < |values| ==> Provided(values[i])
    ensures r.Some? ==> r.value < |values| && !Provided(values[r.value])
    ensures r.Some? ==> forall j :: 0 <= j < r.value ==> Provided(values[j])
    decreases |values|
  {
    if |values| == 0 then None
    else if !Provided(values[0]) then Some(0)
    else
      match FirstMissing(values[1..])
      case None => None
      case Some(i) => Some(i + 1)
  }

  /** The six values listed in CheckOrder's order. */
  function Checked(githubOrg: Option<string>, githubRepo: Option<string>, gitlabDomain: Option<string>,
                   gitlabProject: Option<string>, githubToken: Option<string>, gitlabToken: Option<string>)
    : seq<Option<string>>
  {
    [githubOrg, githubRepo, githubToken, gitlabDomain, gitlabProject, gitlabToken]
  }

  /** `Migration.__init__`, parameters in the order it declares them. It fails
      exactly when some setting is missing, and the message then names the
      first missing setting in CheckOrder. */
  function NewMigration(githubOrg: Option<string>, githubRepo: Option<string>, gitlabDomain: Option<string>,
                        gitlabProject: Option<string>, githubToken: Option<string>, gitlabToken: Option<string>)
    : (r: Result<Settings, string>)
    ensures r.Success? <==> Provided(githubOrg) && Provided(githubRepo) && Provided(githubToken)
                            && Provided(gitlabDomain) && Provided(gitlabProject) && Provided(gitlabToken)
    ensures r.Success? ==> r.value == Settings(githubOrg.value, githubRepo.value, githubToken.value,
                                               gitlabDomain.value, gitlabProject.value, gitlabToken.value)
    ensures r.Failure? ==>
              var vs := Checked(githubOrg, githubRepo, gitlabDomain, gitlabProject, githubToken, gitlabToken);
              exists i :: 0 <= i < 6 && !Provided(vs[i]) && (forall j :: 0 <= j < i ==> Provided(vs[j]))
                          && r.error == MissingMessage(CheckOrder[i])
  {
    var vs := Checked(githubOrg, githubRepo, gitlabDomain, gitlabProject, githubToken, gitlabToken);
    match FirstMissing(vs)
    case Some(i) => Failure(MissingMessage(CheckOrder[i]))
    case None =>
      assert Provided(vs[0]) && Provided(vs[1]) && Provided(vs[2]) && Provided(vs[3]) && Provided(vs[4]) && Provided(vs[5]);
      Success(Settings(githubOrg.value, githubRepo.value, githubToken.value,
                                  gitlabDomain.value, gitlabProject.value, gitlabToken.value))
  }

  /** The test order is not the declaration order: with both the domain and
      the GitHub token missing, the message names the token. */
  lemma TokenReportedBeforeDomain(org: string, repo: string, project: string, token: string)
    requires org != "" && repo != "" && project != "" && token != ""
    ensures NewMigration(Some(org), Some(repo), None, Some(project), Some(""), Some(token))
            == Failure(MissingMessage("github_token"))
  {
    var vs := Checked(Some(org), Some(repo), None, Some(project), Some(""), Some(token));
    assert vs[1..][1..] == vs[2..];
    assert !Provided(vs[2..][0]);
    assert FirstMissing(vs[2..]) == Some(0);
    assert FirstMissing(vs[1..]) == Some(1);
    assert FirstMissing(vs) == Some(2);
    assert CheckOrder[2] == "github_token";
  }
}

=== FILE: idempotence.dfy ===
/** Why a second reconciliation with unchanged source comments issues no
    request (the idempotence migration_lib.py:141-191 relies on), and why a
    run never gives a source comment a second mirroring note. */
module Idempotence {
  import opened Wrappers
  import opened Text
  import opened Markers
  import opened Linkage
  import opened Reconcile

  /** The action updates the note with id `x`. */
  predicate Targets(a: Action, x: nat) {
    a.Update? && a.noteId == x
  }

  /** A note after the plan's updates have been applied in order. */
  function Rewrite(n: Note, plan: seq<Action>): Note
    decreases |plan|
  {
    if |plan| == 0 then n
    else if Targets(plan[|plan| - 1], n.id) then Note(n.id, plan[|plan| - 1].body)
    else Rewrite(n, plan[..|plan| - 1])
  }

  /** A rewritten note is untouched, or carries the body of an update aimed at it. */
  lemma {:induction false} RewriteShape(n: Note, plan: seq<Action>)
    ensures Rewrite(n, plan).id == n.id
    ensures Rewrite(n, plan) == n
            || exists j :: 0 <= j < |plan| && Targets(plan[j], n.id) && Rewrite(n, plan).body == plan[j].body
    ensures (forall j :: 0 <= j < |plan| ==> !Targets(plan[j], n.id)) ==> Rewrite(n, plan) == n
    decreases |plan|
  {
    if |plan| > 0 && !Targets(plan[|plan| - 1], n.id) {
      var init := plan[..|plan| - 1];
      RewriteShape(n, init);
      assert forall j :: 0 <= j < |init| ==> init[j] == plan[j];
    }
  }

  /** A note aimed at by exactly one update ends with that update's body. */
  lemma {:induction false} RewriteOnce(n: Note, plan: seq<Action>, j: nat)
    requires j < |plan| && Targets(plan[j], n.id)
    requires forall j' :: 0 <= j' < |plan| && j' != j ==> !Targets(plan[j'], n.id)
    ensures Rewrite(n, plan) == Note(n.id, plan[j].body)
    decreases |plan|
  {
    var init := plan[..|plan| - 1];
    assert forall j' :: 0 <= j' < |init| ==> init[j'] == plan[j'];
    if j < |plan| - 1 {
      RewriteOnce(n, init, j);
    }
  }

  /** The existing notes after the updates. */
  function Updated(notes: seq<Note>, plan: seq<Action>): (r: seq<Note>)
    ensures |r| == |notes|
  {
    seq(|notes|, q requires 0 <= q < |notes| => Rewrite(notes[q], plan))
  }

  /** The notes the plan creates, in creation order, numbered from `nextId`. */
  function NewNotes(plan: seq<Action>, nextId: nat): seq<Note>
    decreases |plan|
  {
    if |plan| == 0 then []
    else if plan[0].Create? then [Note(nextId, plan[0].body)] + NewNotes(plan[1..], nextId + 1)
    else NewNotes(plan[1..], nextId)
  }

  /** Every created note comes from a Create action of the plan. */
  lemma {:induction false} NewNoteOrigin(plan: seq<Action>, nextId: nat, q: nat)
    requires q < |NewNotes(plan, nextId)|
    ensures exists j :: 0 <= j < |plan| && plan[j].Create? && NewNotes(plan, nextId)[q].body == plan[j].body
    decreases |plan|
  {
    var rest := plan[1..];
    if plan[0].Create? {
      if q > 0 {
        NewNoteOrigin(rest, nextId + 1, q - 1);
        var j :| 0 <= j < |rest| && rest[j].Create? && NewNotes(rest, nextId + 1)[q - 1].body == rest[j].body;
        assert plan[j + 1] == rest[j];
      } else {
        assert plan[0].Create? && NewNotes(plan, nextId)[0].body == plan[0].body;
      }
    } else {
      NewNoteOrigin(rest, nextId, q);
      var j :| 0 <= j < |rest| && rest[j].Create? && NewNotes(rest, nextId)[q].body == rest[j].body;
      assert plan[j + 1] == rest[j];
    }
  }

  /** Every Create action of the plan produces a note. */
  lemma {:induction false} NewNoteFor(plan: seq<Action>, nextId: nat, j: nat)
    requires j < |plan| && plan[j].Create?
    ensures exists q :: 0 <= q < |NewNotes(plan, nextId)| && NewNotes(plan, nextId)[q].body == plan[j].body
    decreases |plan|
  {
    var rest := plan[1..];
    if j == 0 {
      assert NewNotes(plan, nextId)[0].body == plan[0].body;
    } else if plan[0].Create? {
      NewNoteFor(rest, nextId + 1, j - 1);
      var q :| 0 <= q < |NewNotes(rest, nextId + 1)| && NewNotes(rest, nextId + 1)[q].body == rest[j - 1].body;
      assert NewNotes(plan, nextId)[q + 1] == NewNotes(rest, nextId + 1)[q];
    } else {
      NewNoteFor(rest, nextId, j - 1);
      assert rest[j - 1] == plan[j];
      assert NewNotes(plan, nextId) == NewNotes(rest, nextId);
    }
  }

  /** Where the destination lists new notes when they are fetched again. */
  datatype Order = OldestFirst | NewestFirst

  function Reverse<T>(s: seq<T>): (r: seq<T>)
    ensures |r| == |s| && forall i :: 0 <= i < |s| ==> r[i] == s[|s| - 1 - i]
    decreases |s|
  {
    if |s| == 0 then [] else Reverse(s[1..]) + [s[0]]
  }

  /** The destination notes after a run that issued every request of `plan`,
      as the next run fetches them. */
  function ApplyPlan(notes: seq<Note>, plan: seq<Action>, nextId: nat, order: Order): seq<Note> {
    match order
    case OldestFirst => Updated(notes, plan) + NewNotes(plan, nextId)
    case NewestFirst => Reverse(NewNotes(plan, nextId)) + Updated(notes, plan)
  }

  /** Source comment ids are unique. */
  predicate DistinctIds(cs: seq<SourceComment>) {
    forall i, j :: 0 <= i < |cs| && 0 <= j < |cs| && cs[i].id == cs[j].id ==> i == j
  }

  /** Destination note ids are unique. */
  predicate DistinctNoteIds(ns: seq<Note>) {
    forall i, j :: 0 <= i < |ns| && 0 <= j < |ns| && ns[i].id == ns[j].id ==> i == j
  }

  /** No note carries two different mirror keys. */
  ghost predicate OneKeyEach(ns: seq<Note>) {
    forall i, k1, k2 :: 0 <= i < |ns| && Carries(ns[i], k1) && Carries(ns[i], k2) ==> k1 == k2
  }

  predicate AllClean(cs: seq<SourceComment>) {
    forall i :: 0 <= i < |cs| ==> Clean(cs[i])
  }

  lemma KeyDetermines(cs: seq<SourceComment>, i: nat, j: nat)
    requires DistinctIds(cs) && i < |cs| && j < |cs| && Key(cs[i]) == Key(cs[j])
    ensures i == j
  {
    IdStringInjective(cs[i].id, cs[j].id);
  }

  /** A mirrored body of a Clean comment carries only that comment's key. */
  lemma MirroredCarries(c: SourceComment, id: nat, k: string)
    requires Clean(c) && Carries(Note(id, CanonicalBody(c)), k)
    ensures k == Key(c)
  {
    CanonicalKeys(c);
  }

  /** Run 1's update aimed at note `x` belongs to the comment whose key that
      note is the last carrier of. */
  lemma UpdateAimedAtOwner(cs: seq<SourceComment>, ns: seq<Note>, excluded: Option<nat>, j: nat, x: nat, p: nat)
    requires DistinctNoteIds(ns) && OneKeyEach(ns)
    requires j < |cs| && p < |ns| && ns[p].id == x
    requires Targets(Plan(cs, CorrespondenceOf(ns), excluded)[j], x)
    ensures Carries(ns[p], Key(cs[j]))
  {
    var m := CorrespondenceOf(ns);
    assert Key(cs[j]) in m && m[Key(cs[j])].noteId == x;
    CorrespondenceFrom(ns, Key(cs[j]));
    var p' :| 0 <= p' < |ns| && Carries(ns[p'], Key(cs[j])) && m[Key(cs[j])] == Entry(ns[p'].body, ns[p'].id)
              && forall q :: p' < q < |ns| ==> !Carries(ns[q], Key(cs[j]));
    assert p' == p;
  }

  /** The hypotheses under which reconciliation is idempotent: unique ids on
      both sides, no source text that reads as a mirror marker, and no note
      carrying two keys. */
  ghost predicate Tidy(cs: seq<SourceComment>, ns: seq<Note>) {
    DistinctIds(cs) && AllClean(cs) && DistinctNoteIds(ns) && OneKeyEach(ns)
  }

  /** Run 1's plan. */
  function FirstPlan(cs: seq<SourceComment>, ns: seq<Note>, excluded: Option<nat>): seq<Action> {
    Plan(cs, CorrespondenceOf(ns), excluded)
  }

  /** The notes run 2 fetches. */
  function AfterRun(cs: seq<SourceComment>, ns: seq<Note>, excluded: Option<nat>, nextId: nat, order: Order): seq<Note> {
    ApplyPlan(ns, FirstPlan(cs, ns, excluded), nextId, order)
  }

  /** An existing note that carries comment i's key after run 1 was either
      left alone and carried it before, or was updated by comment i itself. */
  lemma OldCarrier(cs: seq<SourceComment>, ns: seq<Note>, excluded: Option<nat>, i: nat, q: nat)
    requires Tidy(cs, ns) && i < |cs| && q < |ns|
    requires Carries(Rewrite(ns[q], FirstPlan(cs, ns, excluded)), Key(cs[i]))
    ensures (Carries(ns[q], Key(cs[i])) && Rewrite(ns[q], FirstPlan(cs, ns, excluded)) == ns[q])
            || Targets(FirstPlan(cs, ns, excluded)[i], ns[q].id)
  {
    var plan := FirstPlan(cs, ns, excluded);
    RewriteShape(ns[q], plan);
    if Rewrite(ns[q], plan) != ns[q] {
      var j :| 0 <= j < |plan| && Targets(plan[j], ns[q].id) && Rewrite(ns[q], plan).body == plan[j].body;
      assert Rewrite(ns[q], plan) == Note(ns[q].id, CanonicalBody(cs[j]));
      MirroredCarries(cs[j], ns[q].id, Key(cs[i]));
      KeyDetermines(cs, i, j);
    }
  }

  /** A created note that carries comment i's key was created for comment i. */
  lemma NewCarrier(cs: seq<SourceComment>, ns: seq<Note>, excluded: Option<nat>, nextId: nat, i: nat, q: nat)
    requires Tidy(cs, ns) && i < |cs|
    requires q < |NewNotes(FirstPlan(cs, ns, excluded), nextId)|
    requires Carries(NewNotes(FirstPlan(cs, ns, excluded), nextId)[q], Key(cs[i]))
    ensures FirstPlan(cs, ns, excluded)[i].Create?
    ensures NewNotes(FirstPlan(cs, ns, excluded), nextId)[q].body == CanonicalBody(cs[i])
  {
    var plan := FirstPlan(cs, ns, excluded);
    var n := NewNotes(plan, nextId)[q];
    NewNoteOrigin(plan, nextId, q);
    var j :| 0 <= j < |plan| && plan[j].Create? && n.body == plan[j].body;
    assert n == Note(n.id, CanonicalBody(cs[j]));
    MirroredCarries(cs[j], n.id, Key(cs[i]));
    KeyDetermines(cs, i, j);
  }

  /** Where existing note `p` sits among the notes the next run fetches. */
  function Position(nn: seq<Note>, order: Order, p: nat): nat {
    match order
    case OldestFirst => p
    case NewestFirst => |nn| + p
  }

  /** Where created note `q` sits among the notes the next run fetches. */
  function NewPosition(ns: seq<Note>, nn: seq<Note>, order: Order, q: nat): int {
    match order
    case OldestFirst => |ns| + q
    case NewestFirst => |nn| - 1 - q
  }

  /** Every note the next run fetches is a rewritten existing note or a
      created one; `fromOld` says which, `q` says where it came from. */
  lemma AppliedOrigin(ns: seq<Note>, plan: seq<Action>, nextId: nat, order: Order, r: nat)
    returns (fromOld: bool, q: nat)
    requires r < |ApplyPlan(ns, plan, nextId, order)|
    ensures fromOld ==> q < |ns| && r == Position(NewNotes(plan, nextId), order, q)
                        && ApplyPlan(ns, plan, nextId, order)[r] == Rewrite(ns[q], plan)
    ensures !fromOld ==> q < |NewNotes(plan, nextId)| && r == NewPosition(ns, NewNotes(plan, nextId), order, q)
                         && ApplyPlan(ns, plan, nextId, order)[r] == NewNotes(plan, nextId)[q]
  {
    var nn := NewNotes(plan, nextId);
    match order
    case OldestFirst =>
      if r < |ns| { fromOld, q := true, r; } else { fromOld, q := false, r - |ns|; }
    case NewestFirst =>
      if r < |nn| { fromOld, q := false, |nn| - 1 - r; } else { fromOld, q := true, r - |nn|; }
  }

  /** The rewritten note `p` is found at its position, and every note after
      it is a later existing note or a created one. */
  lemma AppliedAt(ns: seq<Note>, plan: seq<Action>, nextId: nat, order: Order, p: nat)
    requires p < |ns|
    ensures Position(NewNotes(plan, nextId), order, p) < |ApplyPlan(ns, plan, nextId, order)|
    ensures ApplyPlan(ns, plan, nextId, order)[Position(NewNotes(plan, nextId), order, p)] == Rewrite(ns[p], plan)
  {
  }

  lemma AppliedLater(ns: seq<Note>, plan: seq<Action>, nextId: nat, order: Order, p: nat, r: nat)
    returns (fromOld: bool, q: nat)
    requires p < |ns|
    requires Position(NewNotes(plan, nextId), order, p) < r < |ApplyPlan(ns, plan, nextId, order)|
    ensures fromOld ==> p < q < |ns| && ApplyPlan(ns, plan, nextId, order)[r] == Rewrite(ns[q], plan)
    ensures !fromOld ==> q < |NewNotes(plan, nextId)| && ApplyPlan(ns, plan, nextId, order)[r] == NewNotes(plan, nextId)[q]
  {
    fromOld, q := AppliedOrigin(ns, plan, nextId, order, r);
  }

  /** Every created note is among the notes the next run fetches. */
  lemma AppliedHasNew(ns: seq<Note>, plan: seq<Action>, nextId: nat, order: Order, q: nat) returns (r: nat)
    requires q < |NewNotes(plan, nextId)|
    ensures r < |ApplyPlan(ns, plan, nextId, order)| && ApplyPlan(ns, plan, nextId, order)[r] == NewNotes(plan, nextId)[q]
  {
    var nn := NewNotes(plan, nextId);
    match order
    case OldestFirst => r := |ns| + q;
    case NewestFirst => r := |nn| - 1 - q;
  }

  /** A comment run 1 mirrored with a new note finds that note on run 2. */
  lemma CreatedCase(cs: seq<SourceComment>, ns: seq<Note>, excluded: Option<nat>, nextId: nat, order: Order, i: nat)
    requires Tidy(cs, ns) && i < |cs| && FirstPlan(cs, ns, excluded)[i].Create?
    ensures Key(cs[i]) in CorrespondenceOf(AfterRun(cs, ns, excluded, nextId, order))
    ensures CorrespondenceOf(AfterRun(cs, ns, excluded, nextId, order))[Key(cs[i])].body == CanonicalBody(cs[i])
  {
    var plan := FirstPlan(cs, ns, excluded);
    var after := AfterRun(cs, ns, excluded, nextId, order);
    var k := Key(cs[i]);
    assert plan[i] == Decide(cs[i], CorrespondenceOf(ns), excluded);
    CorrespondenceKeys(ns, k);
    CanonicalKeys(cs[i]);
    NewNoteFor(plan, nextId, i);
    var q0 :| 0 <= q0 < |NewNotes(plan, nextId)| && NewNotes(plan, nextId)[q0].body == plan[i].body;
    var r0 := AppliedHasNew(ns, plan, nextId, order, q0);
    assert Carries(after[r0], k);
    CorrespondenceKeys(after, k);
    CorrespondenceFrom(after, k);
    var r :| 0 <= r < |after| && Carries(after[r], k)
             && CorrespondenceOf(after)[k] == Entry(after[r].body, after[r].id);
    var fromOld, q := AppliedOrigin(ns, plan, nextId, order, r);
    if fromOld {
      OldCarrier(cs, ns, excluded, i, q);
      assert false;
    }
    NewCarrier(cs, ns, excluded, nextId, i, q);
  }

  /** A comment run 1 found already mirrored keeps its note, whose body now
      matches the canonical mirror text up to carriage returns. */
  lemma ExistingCase(cs: seq<SourceComment>, ns: seq<Note>, excluded: Option<nat>, nextId: nat, order: Order, i: nat)
    requires Tidy(cs, ns) && i < |cs| && excluded != Some(cs[i].id)
    requires !FirstPlan(cs, ns, excluded)[i].Create?
    ensures Key(cs[i]) in CorrespondenceOf(AfterRun(cs, ns, excluded, nextId, order))
    ensures StripCR(CorrespondenceOf(AfterRun(cs, ns, excluded, nextId, order))[Key(cs[i])].body)
            == StripCR(CanonicalBody(cs[i]))
  {
    var plan := FirstPlan(cs, ns, excluded);
    var m1 := CorrespondenceOf(ns);
    var after := AfterRun(cs, ns, excluded, nextId, order);
    var nn := NewNotes(plan, nextId);
    var k := Key(cs[i]);
    assert plan[i] == Decide(cs[i], m1, excluded);
    CorrespondenceFrom(ns, k);
    var p :| 0 <= p < |ns| && Carries(ns[p], k) && m1[k] == Entry(ns[p].body, ns[p].id)
             && forall j :: p < j < |ns| ==> !Carries(ns[j], k);
    // Only comment i's action can aim at note p.
    forall j | 0 <= j < |plan| && j != i
      ensures !Targets(plan[j], ns[p].id)
    {
      if Targets(plan[j], ns[p].id) {
        UpdateAimedAtOwner(cs, ns, excluded, j, ns[p].id, p);
        KeyDetermines(cs, i, j);
        assert false;
      }
    }
    var rewritten := Rewrite(ns[p], plan);
    if plan[i].Update? {
      RewriteOnce(ns[p], plan, i);
      CanonicalKeys(cs[i]);
      assert rewritten.body == CanonicalBody(cs[i]);
    } else {
      RewriteShape(ns[p], plan);
      assert rewritten == ns[p];
    }
    assert Carries(rewritten, k);
    var pos := Position(nn, order, p);
    AppliedAt(ns, plan, nextId, order, p);
    forall r | pos < r < |after|
      ensures !Carries(after[r], k)
    {
      var fromOld, q := AppliedLater(ns, plan, nextId, order, p, r);
      if Carries(after[r], k) {
        if fromOld {
          OldCarrier(cs, ns, excluded, i, q);
          assert false;
        } else {
          NewCarrier(cs, ns, excluded, nextId, i, q);
          assert false;
        }
      }
    }
    CorrespondenceLast(after, k, pos);
  }

  /** A plan that issues no POST or PUT: every comment is skipped or up to date. */
  predicate Quiet(plan: seq<Action>) {
    forall i :: 0 <= i < |plan| ==> plan[i].Skip? || plan[i].UpToDate?
  }

  /** A plan issues no POST or PUT exactly when it is quiet. */
  lemma {:induction false} QuietRequests(plan: seq<Action>)
    ensures Requests(plan) == [] <==> Quiet(plan)
    decreases |plan|
  {
    if |plan| > 0 {
      QuietRequests(plan[1..]);
      assert forall i :: 1 <= i < |plan| ==> plan[1..][i - 1] == plan[i];
    }
  }

  /** Idempotence: after a run that issued every request of its plan, a
      second run over the same source comments plans nothing but skips and
      up-to-date comments, so it sends no POST or PUT, whatever order the
      destination lists the new notes in. */
  lemma SecondPlanIsQuiet(cs: seq<SourceComment>, ns: seq<Note>, excluded: Option<nat>, nextId: nat, order: Order)
    requires Tidy(cs, ns)
    ensures forall i :: 0 <= i < |cs| ==>
              Plan(cs, CorrespondenceOf(AfterRun(cs, ns, excluded, nextId, order)), excluded)[i].Skip?
              || Plan(cs, CorrespondenceOf(AfterRun(cs, ns, excluded, nextId, order)), excluded)[i].UpToDate?
  {
    var m2 := CorrespondenceOf(AfterRun(cs, ns, excluded, nextId, order));
    var plan2 := Plan(cs, m2, excluded);
    forall i | 0 <= i < |cs|
      ensures plan2[i].Skip? || plan2[i].UpToDate?
    {
      assert plan2[i] == Decide(cs[i], m2, excluded);
      if excluded != Some(cs[i].id) {
        if FirstPlan(cs, ns, excluded)[i].Create? {
          CreatedCase(cs, ns, excluded, nextId, order, i);
        } else {
          ExistingCase(cs, ns, excluded, nextId, order, i);
        }
      }
    }
  }

  /** Hence run 2 sends no POST and no PUT; only its reads remain. */
  lemma SecondRunSendsNothing(cs: seq<SourceComment>, ns: seq<Note>, excluded: Option<nat>, nextId: nat, order: Order)
    requires Tidy(cs, ns)
    ensures Requests(Plan(cs, CorrespondenceOf(AfterRun(cs, ns, excluded, nextId, order)), excluded)) == []
  {
    var plan2 := Plan(cs, CorrespondenceOf(AfterRun(cs, ns, excluded, nextId, order)), excluded);
    SecondPlanIsQuiet(cs, ns, excluded, nextId, order);
    assert Quiet(plan2);
    QuietRequests(plan2);
  }

  /** Created notes are numbered consecutively from `nextId`. */
  lemma {:induction false} NewNoteIds(plan: seq<Action>, nextId: nat)
    ensures |NewNotes(plan, nextId)| <= |plan|
    ensures forall q :: 0 <= q < |NewNotes(plan, nextId)| ==> NewNotes(plan, nextId)[q].id == nextId + q
    decreases |plan|
  {
    if |plan| > 0 {
      if plan[0].Create? {
        NewNoteIds(plan[1..], nextId + 1);
      } else {
        NewNoteIds(plan[1..], nextId);
      }
    }
  }

  /** After run 1 every note is an old one left alone or carries the
      canonical mirror text of some source comment. */
  lemma AfterRunShape(cs: seq<SourceComment>, ns: seq<Note>, excluded: Option<nat>, nextId: nat, order: Order, r: nat)
    returns (fromOld: bool, q: nat)
    requires r < |AfterRun(cs, ns, excluded, nextId, order)|
    ensures fromOld ==> q < |ns| && AfterRun(cs, ns, excluded, nextId, order)[r] == ns[q]
    ensures !fromOld ==> q < |cs| && AfterRun(cs, ns, excluded, nextId, order)[r].body == CanonicalBody(cs[q])
  {
    var plan := FirstPlan(cs, ns, excluded);
    var after := AfterRun(cs, ns, excluded, nextId, order);
    var old_, at := AppliedOrigin(ns, plan, nextId, order, r);
    if old_ {
      RewriteShape(ns[at], plan);
      if after[r] == ns[at] {
        fromOld, q := true, at;
      } else {
        var j :| 0 <= j < |plan| && Targets(plan[j], ns[at].id) && after[r].body == plan[j].body;
        assert plan[j] == Decide(cs[j], CorrespondenceOf(ns), excluded);
        fromOld, q := false, j;
      }
    } else {
      NewNoteOrigin(plan, nextId, at);
      var j :| 0 <= j < |plan| && plan[j].Create? && NewNotes(plan, nextId)[at].body == plan[j].body;
      assert plan[j] == Decide(cs[j], CorrespondenceOf(ns), excluded);
      fromOld, q := false, j;
    }
  }

  /** The id an existing note keeps, or the id a created note gets. */
  lemma AfterRunId(cs: seq<SourceComment>, ns: seq<Note>, excluded: Option<nat>, nextId: nat, order: Order, r: nat)
    returns (fromOld: bool, q: nat)
    requires r < |AfterRun(cs, ns, excluded, nextId, order)|
    ensures fromOld ==> q < |ns| && AfterRun(cs, ns, excluded, nextId, order)[r].id == ns[q].id
                        && r == Position(NewNotes(FirstPlan(cs, ns, excluded), nextId), order, q)
    ensures !fromOld ==> AfterRun(cs, ns, excluded, nextId, order)[r].id == nextId + q
                         && q < |NewNotes(FirstPlan(cs, ns, excluded), nextId)|
                         && r == NewPosition(ns, NewNotes(FirstPlan(cs, ns, excluded), nextId), order, q)
                         && AfterRun(cs, ns, excluded, nextId, order)[r] == NewNotes(FirstPlan(cs, ns, excluded), nextId)[q]
  {
    var plan := FirstPlan(cs, ns, excluded);
    fromOld, q := AppliedOrigin(ns, plan, nextId, order, r);
    if fromOld {
      RewriteShape(ns[q], plan);
    } else {
      NewNoteIds(plan, nextId);
    }
  }

  /** Ids allocated by the destination are above every id it already holds. */
  predicate IdsBelow(ns: seq<Note>, nextId: nat) {
    forall q :: 0 <= q < |ns| ==> ns[q].id < nextId
  }

  /** A completed run preserves the destination-side hypotheses of
      idempotence, so they hold again for the run after it. */
  lemma RunKeepsTidy(cs: seq<SourceComment>, ns: seq<Note>, excluded: Option<nat>, nextId: nat, order: Order)
    requires Tidy(cs, ns) && IdsBelow(ns, nextId)
    ensures Tidy(cs, AfterRun(cs, ns, excluded, nextId, order))
    ensures IdsBelow(AfterRun(cs, ns, excluded, nextId, order),
                     nextId + |NewNotes(FirstPlan(cs, ns, excluded), nextId)|)
  {
    var after := AfterRun(cs, ns, excluded, nextId, order);
    forall r | 0 <= r < |after|
      ensures after[r].id < nextId + |NewNotes(FirstPlan(cs, ns, excluded), nextId)|
    {
      var _, _ := AfterRunId(cs, ns, excluded, nextId, order, r);
    }
    forall r, k1, k2 | 0 <= r < |after| && Carries(after[r], k1) && Carries(after[r], k2)
      ensures k1 == k2
    {
      var fromOld, q := AfterRunShape(cs, ns, excluded, nextId, order, r);
      if !fromOld {
        MirroredCarries(cs[q], after[r].id, k1);
        MirroredCarries(cs[q], after[r].id, k2);
      }
    }
    forall a, b | 0 <= a < |after| && 0 <= b < |after| && after[a].id == after[b].id
      ensures a == b
    {
      var oldA, qa := AfterRunId(cs, ns, excluded, nextId, order, a);
      var oldB, qb := AfterRunId(cs, ns, excluded, nextId, order, b);
      if oldA && oldB {
        assert qa == qb;
      } else if !oldA && !oldB {
        assert qa == qb;
      } else {
        assert false;
      }
    }
  }

  /** At most one note carries key `k`. */
  ghost predicate OneCarrier(ns: seq<Note>, k: string) {
    forall a, b :: 0 <= a < |ns| && 0 <= b < |ns| && Carries(ns[a], k) && Carries(ns[b], k) ==> a == b
  }

  /** Run 1 never creates two notes with the same text: each Create holds
      the mirror text of its own comment, and those differ in their keys. */
  lemma CreatedBodiesDistinct(cs: seq<SourceComment>, ns: seq<Note>, excluded: Option<nat>)
    requires Tidy(cs, ns)
    ensures forall j1, j2 :: 0 <= j1 < j2 < |cs| && FirstPlan(cs, ns, excluded)[j1].Create?
              && FirstPlan(cs, ns, excluded)[j2].Create?
              ==> FirstPlan(cs, ns, excluded)[j1].body != FirstPlan(cs, ns, excluded)[j2].body
  {
    var plan := FirstPlan(cs, ns, excluded);
    forall j1, j2 | 0 <= j1 < j2 < |cs| && plan[j1].Create? && plan[j2].Create?
      ensures plan[j1].body != plan[j2].body
    {
      assert plan[j1] == Decide(cs[j1], CorrespondenceOf(ns), excluded);
      assert plan[j2] == Decide(cs[j2], CorrespondenceOf(ns), excluded);
      if plan[j1].body == plan[j2].body {
        CanonicalKeys(cs[j1]);
        MirroredCarries(cs[j2], 0, Key(cs[j1]));
        KeyDetermines(cs, j1, j2);
        assert false;
      }
    }
  }

  /** Notes created from Creates with pairwise different texts have pairwise
      different texts. */
  lemma {:induction false} NewNotesDistinct(plan: seq<Action>, nextId: nat)
    requires forall j1, j2 :: 0 <= j1 < j2 < |plan| && plan[j1].Create? && plan[j2].Create?
               ==> plan[j1].body != plan[j2].body
    ensures forall q1, q2 :: 0 <= q1 < q2 < |NewNotes(plan, nextId)|
              ==> NewNotes(plan, nextId)[q1].body != NewNotes(plan, nextId)[q2].body
    decreases |plan|
  {
    if |plan| > 0 {
      var rest := plan[1..];
      assert forall j :: 0 <= j < |rest| ==> rest[j] == plan[j + 1];
      if plan[0].Create? {
        NewNotesDistinct(rest, nextId + 1);
        var nn := NewNotes(plan, nextId);
        forall q2 | 0 < q2 < |nn|
          ensures nn[0].body != nn[q2].body
        {
          NewNoteOrigin(rest, nextId + 1, q2 - 1);
          var j :| 0 <= j < |rest| && rest[j].Create? && NewNotes(rest, nextId + 1)[q2 - 1].body == rest[j].body;
          assert plan[0].body != plan[j + 1].body;
        }
      } else {
        NewNotesDistinct(rest, nextId);
      }
    }
  }

  /** An existing note carrying `k` after run 1 already carried it: an
      update only ever rewrites a note with the text of the key it had. */
  lemma CarrierBefore(cs: seq<SourceComment>, ns: seq<Note>, excluded: Option<nat>, q: nat, k: string)
    requires Tidy(cs, ns) && q < |ns|
    requires Carries(Rewrite(ns[q], FirstPlan(cs, ns, excluded)), k)
    ensures Carries(ns[q], k)
  {
    var plan := FirstPlan(cs, ns, excluded);
    RewriteShape(ns[q], plan);
    if Rewrite(ns[q], plan) != ns[q] {
      var j :| 0 <= j < |plan| && Targets(plan[j], ns[q].id) && Rewrite(ns[q], plan).body == plan[j].body;
      assert Rewrite(ns[q], plan) == Note(ns[q].id, CanonicalBody(cs[j]));
      MirroredCarries(cs[j], ns[q].id, k);
      UpdateAimedAtOwner(cs, ns, excluded, j, ns[q].id, q);
    }
  }

  /** A created note carrying `k` mirrors the comment whose key is `k`, and
      no existing note carried `k`. */
  lemma CarrierCreated(cs: seq<SourceComment>, ns: seq<Note>, excluded: Option<nat>, nextId: nat, q: nat, k: string)
    returns (j: nat)
    requires Tidy(cs, ns) && q < |NewNotes(FirstPlan(cs, ns, excluded), nextId)|
    requires Carries(NewNotes(FirstPlan(cs, ns, excluded), nextId)[q], k)
    ensures j < |cs| && Key(cs[j]) == k
    ensures NewNotes(FirstPlan(cs, ns, excluded), nextId)[q].body == CanonicalBody(cs[j])
    ensures forall p :: 0 <= p < |ns| ==> !Carries(ns[p], k)
  {
    var plan := FirstPlan(cs, ns, excluded);
    var n := NewNotes(plan, nextId)[q];
    NewNoteOrigin(plan, nextId, q);
    j :| 0 <= j < |plan| && plan[j].Create? && n.body == plan[j].body;
    assert plan[j] == Decide(cs[j], CorrespondenceOf(ns), excluded);
    assert n == Note(n.id, CanonicalBody(cs[j]));
    MirroredCarries(cs[j], n.id, k);
    CorrespondenceKeys(ns, k);
  }

  /** A run never gives a key a second carrier: if at most one note carried
      a comment's mirror marker before, at most one carries it after. */
  lemma RunKeepsOneCarrier(cs: seq<SourceComment>, ns: seq<Note>, excluded: Option<nat>, nextId: nat, order: Order,
                           k: string)
    requires Tidy(cs, ns) && OneCarrier(ns, k)
    ensures OneCarrier(AfterRun(cs, ns, excluded, nextId, order), k)
  {
    var plan := FirstPlan(cs, ns, excluded);
    var after := AfterRun(cs, ns, excluded, nextId, order);
    var nn := NewNotes(plan, nextId);
    CreatedBodiesDistinct(cs, ns, excluded);
    NewNotesDistinct(plan, nextId);
    forall a, b | 0 <= a < |after| && 0 <= b < |after| && Carries(after[a], k) && Carries(after[b], k)
      ensures a == b
    {
      var oldA, qa := AppliedOrigin(ns, plan, nextId, order, a);
      var oldB, qb := AppliedOrigin(ns, plan, nextId, order, b);
      if oldA && oldB {
        CarrierBefore(cs, ns, excluded, qa, k);
        CarrierBefore(cs, ns, excluded, qb, k);
      } else if oldA {
        CarrierBefore(cs, ns, excluded, qa, k);
        var _ := CarrierCreated(cs, ns, excluded, nextId, qb, k);
        assert false;
      } else if oldB {
        CarrierBefore(cs, ns, excluded, qb, k);
        var _ := CarrierCreated(cs, ns, excluded, nextId, qa, k);
        assert false;
      } else {
        var ja := CarrierCreated(cs, ns, excluded, nextId, qa, k);
        var jb := CarrierCreated(cs, ns, excluded, nextId, qb, k);
        KeyDetermines(cs, ja, jb);
        assert nn[qa].body == nn[qb].body;
      }
    }
  }

  /** A note body carrying the mirror markers of ids 1 and 2. */
  function SharedBody(): string {
    MirrorPrefix + IdString(1) + "\n" + MirrorPrefix + IdString(2)
  }

  lemma SharedBodyKeys()
    ensures MirrorKeys(SharedBody()) == {IdString(1), IdString(2)}
    ensures IdString(1) != IdString(2)
  {
    var first, second := MirrorPrefix + IdString(1), MirrorPrefix + IdString(2);
    assert SharedBody() == first + "\n" + second;
    PrefixesSingleLine();
    MarkerLine(MirrorPrefix, 1);
    MarkerLine(MirrorPrefix, 2);
    TwoLines(first, second);
    assert Lines(SharedBody())[1..] == [second];
    assert LineKeys(MirrorPrefix, [second]) == {IdString(2)} by {
      assert [second][1..] == [];
    }
    IdStringInjective(1, 2);
  }

  /** A comment with empty body, login and URL carries no marker. */
  lemma EmptyCommentClean(id: nat)
    ensures Clean(SourceComment(id, "", "", ""))
  {
    assert Lines("") == [""];
    assert MatchMarker(MirrorPrefix, "").None?;
    assert LineKeys(MirrorPrefix, [""]) == {} by {
      assert [""][1..] == [];
    }
  }

  /** Carriage-return removal keeps a first character that is not a CR. */
  lemma StripCRHead(s: string)
    requires |s| > 0 && s[0] != '\r'
    ensures |StripCR(s)| > 0 && StripCR(s)[0] == s[0]
  {
  }

  /** The shared note never equals a mirrored body, even up to CRs. */
  lemma SharedBodyIsStale(c: SourceComment)
    ensures StripCR(SharedBody()) != StripCR(CanonicalBody(c))
  {
    TagsSingleLine();
    assert SharedBody()[0] == 'g';
    assert CanonicalBody(c)[0] == AuthorTag[0];
    StripCRHead(SharedBody());
    StripCRHead(CanonicalBody(c));
  }

  /** Run 1 with a note shared by two comments: both update it, the second
      update wins, and nothing is created. */
  lemma SharedNoteRunOne(c1: SourceComment, c2: SourceComment, n: Note, nextId: nat)
    requires Key(c1) != Key(c2) && MirrorKeys(n.body) == {Key(c1), Key(c2)}
    requires StripCR(n.body) != StripCR(CanonicalBody(c1)) && StripCR(n.body) != StripCR(CanonicalBody(c2))
    ensures AfterRun([c1, c2], [n], None, nextId, OldestFirst) == [Note(n.id, CanonicalBody(c2))]
  {
    var ns := [n];
    var m1 := CorrespondenceOf(ns);
    CorrespondenceLast(ns, Key(c1), 0);
    CorrespondenceLast(ns, Key(c2), 0);
    var plan := FirstPlan([c1, c2], ns, None);
    assert plan[0] == Decide(c1, m1, None) == Update(n.id, CanonicalBody(c1));
    assert plan[1] == Decide(c2, m1, None) == Update(n.id, CanonicalBody(c2));
    assert Rewrite(n, plan) == Note(n.id, CanonicalBody(c2));
    assert NewNotes(plan[1..], nextId) == [];
  }

  /** Run 2 after that: the first comment's key is gone, so it is created again. */
  lemma SharedNoteRunTwo(c1: SourceComment, c2: SourceComment, x: nat)
    requires Clean(c2) && Key(c1) != Key(c2)
    ensures Plan([c1, c2], CorrespondenceOf([Note(x, CanonicalBody(c2))]), None)[0].Create?
  {
    var after := [Note(x, CanonicalBody(c2))];
    CanonicalKeys(c2);
    CorrespondenceKeys(after, Key(c1));
    assert Plan([c1, c2], CorrespondenceOf(after), None)[0] == Decide(c1, CorrespondenceOf(after), None);
  }

  /** Two source comments with empty texts, and one note carrying both of
      their markers. */
  function SharedComments(): seq<SourceComment> {
    [SourceComment(1, "", "", ""), SourceComment(2, "", "", "")]
  }

  function SharedNotes(): seq<Note> {
    [Note(5, SharedBody())]
  }

  lemma SharedHypotheses()
    ensures DistinctIds(SharedComments()) && AllClean(SharedComments())
    ensures DistinctNoteIds(SharedNotes()) && !OneKeyEach(SharedNotes())
  {
    SharedBodyKeys();
    assert Carries(SharedNotes()[0], IdString(1)) && Carries(SharedNotes()[0], IdString(2));
    EmptyCommentClean(1);
    EmptyCommentClean(2);
  }

  lemma SharedRuns()
    ensures Plan(SharedComments(), CorrespondenceOf(AfterRun(SharedComments(), SharedNotes(), None, 6, OldestFirst)), None)[0].Create?
  {
    var c1, c2 := SharedComments()[0], SharedComments()[1];
    SharedBodyKeys();
    EmptyCommentClean(2);
    SharedBodyIsStale(c1);
    SharedBodyIsStale(c2);
    SharedNoteRunOne(c1, c2, SharedNotes()[0], 6);
    SharedNoteRunTwo(c1, c2, 5);
  }

  /** Why OneKeyEach is needed: a single existing note carrying the markers of
      two source comments is the winner for both keys, both comments update
      it, the second update wins, and run 2 finds the first comment's key
      gone and creates a note for it again. */
  lemma SharedNoteBreaksQuiet()
    ensures var cs := SharedComments();
            var ns := SharedNotes();
            DistinctIds(cs) && AllClean(cs) && DistinctNoteIds(ns) && !OneKeyEach(ns)
            && !Quiet(Plan(cs, CorrespondenceOf(AfterRun(cs, ns, None, 6, OldestFirst)), None))
  {
    SharedHypotheses();
    SharedRuns();
  }
}

=== FILE: linkage.dfy ===
/** The identity resolver of `sync_github_issue` (migration_lib.py:86-125):
    finding the destination issue through a marker line in the source issue's
    comments, and the two texts written when no such line exists. */
module Linkage {
  import opened Wrappers
  import opened Text
  import opened Markers

  /** A source-side comment; `login` is "" when the comment has no user. */
  datatype SourceComment = SourceComment(id: nat, body: string, login: string, htmlUrl: string)

  /** The source issue as the resolver reads it; the title and the body may be
      JSON null. */
  datatype SourceIssue = SourceIssue(title: Option<string>, body: Option<string>, htmlUrl: string)

  /** What the scan found: the destination issue id as captured from the marker
      line, and the id of the comment carrying it; or nothing. */
  datatype Link = Linked(issueId: string, announcedBy: nat) | Unlinked

  /** The linkage marker of one comment: its first line that is a marker. */
  function LinkageOf(c: SourceComment): Option<string> {
    FirstMarker(LinkagePrefix, Lines(c.body))
  }

  /** One iteration of the outer loop: a marker-bearing comment replaces what
      was found so far (the `break` only leaves the loop over its lines). */
  function ScanStep(found: Link, c: SourceComment): Link {
    match LinkageOf(c)
    case Some(d) => Linked(d, c.id)
    case None => found
  }

  function ScanFrom(found: Link, comments: seq<SourceComment>): Link
    decreases |comments|
  {
    if |comments| == 0 then found else ScanFrom(ScanStep(found, comments[0]), comments[1..])
  }

  /** The linkage scan over all source comments, in the order fetched. */
  function Resolve(comments: seq<SourceComment>): (r: Link) {
    ScanFrom(Unlinked, comments)
  }

  lemma {:induction false} ScanFromAppend(found: Link, a: seq<SourceComment>, c: SourceComment)
    ensures ScanFrom(found, a + [c]) == ScanStep(ScanFrom(found, a), c)
    decreases |a|
  {
    if |a| == 0 {
      assert a + [c] == [c];
    } else {
      assert (a + [c])[0] == a[0];
      assert (a + [c])[1..] == a[1..] + [c];
      ScanFromAppend(ScanStep(found, a[0]), a[1..], c);
    }
  }

  /** The scan finds nothing exactly when no comment has a marker line. */
  lemma {:induction false} ResolveUnlinked(comments: seq<SourceComment>)
    ensures Resolve(comments).Unlinked? <==> forall i :: 0 <= i < |comments| ==> LinkageOf(comments[i]).None?
    decreases |comments|
  {
    if |comments| > 0 {
      var init := comments[..|comments| - 1];
      var last := comments[|comments| - 1];
      assert comments == init + [last];
      ResolveUnlinked(init);
      ScanFromAppend(Unlinked, init, last);
      assert forall i :: 0 <= i < |init| ==> init[i] == comments[i];
    }
  }

  /** The scan resolves to the LAST comment that has a marker line, taking the
      first marker line inside it. */
  lemma {:induction false} ResolveLastMarked(comments: seq<SourceComment>, i: nat)
    requires i < |comments| && LinkageOf(comments[i]).Some?
    requires forall j :: i < j < |comments| ==> LinkageOf(comments[j]).None?
    ensures Resolve(comments) == Linked(LinkageOf(comments[i]).value, comments[i].id)
    decreases |comments|
  {
    var init := comments[..|comments| - 1];
    var last := comments[|comments| - 1];
    assert comments == init + [last];
    ScanFromAppend(Unlinked, init, last);
    if i < |comments| - 1 {
      assert forall j :: i < j < |init| ==> init[j] == comments[j];
      ResolveLastMarked(init, i);
    }
  }

  /** The title-less part of the destination issue created when no link
      exists: the source body (null read as empty) with every CR LF turned
      into LF, then a back-reference to the source issue. */
  function Description(issue: SourceIssue): (r: string)
    ensures EndsWith(r, "\n\nGithub reference: " + issue.htmlUrl)
    ensures StripCR(r) == StripCR(issue.body.GetOr("")) + StripCR("\n\nGithub reference: " + issue.htmlUrl)
    ensures !HasCR(issue.body.GetOr("")) ==> r == issue.body.GetOr("") + "\n\nGithub reference: " + issue.htmlUrl
    ensures r == ReplaceCRLF(issue.body.GetOr("")) + "\n\nGithub reference: " + issue.htmlUrl
  {
    var body := issue.body.GetOr("");
    var suffix := "\n\nGithub reference: " + issue.htmlUrl;
    ReplaceCRLFKeepsText(body);
    StripCRAppend(ReplaceCRLF(body), suffix);
    if !HasCR(body) then ReplaceCRLFNoCR(body); ReplaceCRLF(body) + suffix
    else ReplaceCRLF(body) + suffix
  }

  /** Every CR LF of the source body reaches the description as one LF, and
      the text around it is carried over on its own. */
  lemma DescriptionReplacesCRLF(issue: SourceIssue, a: string, b: string)
    requires issue.body == Some(a + "\r\n" + b)
    ensures Description(issue) == ReplaceCRLF(a) + "\n" + ReplaceCRLF(b) + "\n\nGithub reference: " + issue.htmlUrl
  {
    ReplaceCRLFSplits(a, b);
  }

  /** The source-side comment announcing a newly created destination issue. */
  function Announcement(webUrl: string, iid: nat): string {
    "Created gitlab issue: " + webUrl + "\n" + LinkagePrefix + IdString(iid)
  }

  /** The announcement is read back by the scan as the id it announces, as
      long as the destination URL is a single line. */
  lemma AnnouncementLinks(webUrl: string, iid: nat, id: nat, login: string, htmlUrl: string)
    requires !HasNewline(webUrl)
    ensures LinkageOf(SourceComment(id, Announcement(webUrl, iid), login, htmlUrl)) == Some(IdString(iid))
  {
    var first := "Created gitlab issue: " + webUrl;
    var second := LinkagePrefix + IdString(iid);
    assert Announcement(webUrl, iid) == first + "\n" + second;
    NoNewlineConcat("Created gitlab issue: ", webUrl);
    PrefixesSingleLine();
    MarkerLine(LinkagePrefix, iid);
    TwoLines(first, second);
    NotMarker(LinkagePrefix, first);
    var lines := Lines(Announcement(webUrl, iid));
    assert lines == [first, second];
    assert lines[1..] == [second];
    assert FirstMarker(LinkagePrefix, lines[1..]) == Some(IdString(iid));
    assert FirstMarker(LinkagePrefix, lines) == FirstMarker(LinkagePrefix, lines[1..]);
  }

  /** Marker round trip: once the announcement is the last comment, the next
      scan resolves to the announced issue and names the announcement as the
      comment to leave out, so no second issue is created. */
  lemma ResolveAfterAnnouncement(comments: seq<SourceComment>, webUrl: string, iid: nat,
                                 id: nat, login: string, htmlUrl: string)
    requires !HasNewline(webUrl)
    ensures Resolve(comments + [SourceComment(id, Announcement(webUrl, iid), login, htmlUrl)])
            == Linked(IdString(iid), id)
  {
    var c := SourceComment(id, Announcement(webUrl, iid), login, htmlUrl);
    AnnouncementLinks(webUrl, iid, id, login, htmlUrl);
    ScanFromAppend(Unlinked, comments, c);
  }
}

=== FILE: markers.dfy ===
/** The two marker lines that carry cross-tracker identity, and how a line is
    recognised as one (migration_lib.py:87, 92, 143, 146). */
module Markers {
  import opened Wrappers
  import opened Text

  /** Marker written into a source-side comment: names the destination issue. */
  const LinkagePrefix: string := "gitlab-issue-id:"

  /** Marker written into every destination note: names the source comment. */
  const MirrorPrefix: string := "github-comment-id:"

  lemma PrefixesSingleLine()
    ensures !HasNewline(LinkagePrefix) && !HasNewline(MirrorPrefix)
  {
  }

  /** The longest run of decimal digits at the start of `s` (a greedy `\d+`). */
  function DigitRun(s: string): (r: string)
    ensures StartsWith(s, r) && AllDigits(r)
    ensures |r| == |s| || !IsDigit(s[|r|])
    decreases |s|
  {
    if |s| > 0 && IsDigit(s[0]) then [s[0]] + DigitRun(s[1..]) else ""
  }

  /** Group 1 of `re.match(prefix + r"(\d+)", line)`: the match is anchored at
      the start of the line only, so whatever follows the digits is ignored. */
  function MatchMarker(prefix: string, line: string): (r: Option<string>)
    ensures r.Some? <==> StartsWith(line, prefix) && |line| > |prefix| && IsDigit(line[|prefix|])
    ensures r.Some? ==> |r.value| >= 1 && AllDigits(r.value) && StartsWith(line, prefix + r.value)
    ensures r.Some? ==> |line| == |prefix| + |r.value| || !IsDigit(line[|prefix| + |r.value|])
  {
    if StartsWith(line, prefix) && |line| > |prefix| && IsDigit(line[|prefix|]) then
      Some(DigitRun(line[|prefix|..]))
    else
      None
  }

  lemma {:induction false} DigitRunOf(d: string, t: string)
    requires AllDigits(d)
    requires |t| == 0 || !IsDigit(t[0])
    ensures DigitRun(d + t) == d
    decreases |d|
  {
    if |d| == 0 {
      assert d + t == t;
    } else {
      assert (d + t)[0] == d[0];
      assert (d + t)[1..] == d[1..] + t;
      assert AllDigits(d[1..]) by {
        forall i | 0 <= i < |d[1..]| ensures IsDigit(d[1..][i]) {
          assert d[1..][i] == d[i + 1];
        }
      }
      DigitRunOf(d[1..], t);
      assert [d[0]] + d[1..] == d;
    }
  }

  /** Converse of MatchMarker's contract: a line made of the prefix, a digit run
      and anything not starting with a digit is recognised, and the captured
      value is exactly that digit run. */
  lemma MatchMarkerOf(prefix: string, d: string, t: string)
    requires |d| >= 1 && AllDigits(d)
    requires |t| == 0 || !IsDigit(t[0])
    ensures MatchMarker(prefix, prefix + d + t) == Some(d)
  {
    var line := prefix + d + t;
    assert line[..|prefix|] == prefix;
    assert line[|prefix|] == d[0];
    assert line[|prefix|..] == d + t;
    DigitRunOf(d, t);
  }

  /** A marker line written as the prefix followed by a number is a single
      line, recognised with exactly that number's digits. */
  lemma MarkerLine(prefix: string, n: nat)
    requires !HasNewline(prefix)
    ensures MatchMarker(prefix, prefix + IdString(n)) == Some(IdString(n))
    ensures !HasNewline(prefix + IdString(n))
  {
    MatchMarkerOf(prefix, IdString(n), "");
    assert prefix + IdString(n) + "" == prefix + IdString(n);
    DigitsNoNewline(IdString(n));
    NoNewlineConcat(prefix, IdString(n));
  }

  /** A line whose first character differs from the prefix's is never a marker. */
  lemma NotMarker(prefix: string, line: string)
    requires |prefix| > 0 && |line| > 0 && line[0] != prefix[0]
    ensures MatchMarker(prefix, line).None?
  {
  }

  /** Every value captured by a marker line among `lines`. */
  function LineKeys(prefix: string, lines: seq<string>): set<string>
    decreases |lines|
  {
    if |lines| == 0 then {}
    else
      (match MatchMarker(prefix, lines[0]) case Some(d) => {d} case None => {})
      + LineKeys(prefix, lines[1..])
  }

  lemma {:induction false} LineKeysAppend(prefix: string, a: seq<string>, b: seq<string>)
    ensures LineKeys(prefix, a + b) == LineKeys(prefix, a) + LineKeys(prefix, b)
    decreases |a|
  {
    if |a| == 0 {
      assert a + b == b;
    } else {
      assert (a + b)[0] == a[0];
      assert (a + b)[1..] == a[1..] + b;
      LineKeysAppend(prefix, a[1..], b);
    }
  }

  /** The values of all mirror markers in a note body. */
  function MirrorKeys(body: string): set<string> {
    LineKeys(MirrorPrefix, Lines(body))
  }

  /** The value of the first line of `lines` that is a marker, if any. */
  function FirstMarker(prefix: string, lines: seq<string>): (r: Option<string>)
    ensures r.None? <==> forall i :: 0 <= i < |lines| ==> MatchMarker(prefix, lines[i]).None?
    ensures r.Some? ==> exists i :: 0 <= i < |lines| && MatchMarker(prefix, lines[i]) == r
                          && forall j :: 0 <= j < i ==> MatchMarker(prefix, lines[j]).None?
    decreases |lines|
  {
    if |lines| == 0 then None
    else if MatchMarker(prefix, lines[0]).Some? then MatchMarker(prefix, lines[0])
    else
      var r := FirstMarker(prefix, lines[1..]);
      assert forall i :: 0 < i < |lines| ==> lines[i] == lines[1..][i - 1];
      if r.Some? then
        var i :| 0 <= i < |lines[1..]| && MatchMarker(prefix, lines[1..][i]) == r
                 && forall j :: 0 <= j < i ==> MatchMarker(prefix, lines[1..][j]).None?;
        assert MatchMarker(prefix, lines[i + 1]) == r;
        r
      else
        r
  }
}

=== FILE: paging.dfy ===
/** The paging loops (migration_lib.py:39-53, 74-82, 131-139) and the issue
    listing built on one of them. The tracker is a finite sequence of pages:
    `pages[i]` is its answer to the (i+1)-th request. */
module Paging {
  import opened Wrappers
  import opened Text

  /** Page size of both comment loops (migration_lib.py:73, 130). */
  const CommentsPerPage: nat := 100

  /** Page size of the issue listing (migration_lib.py:38). */
  const IssuesPerPage: nat := 50

  /** What a paging loop returns, and how many requests it issued. */
  datatype Fetched<T> = Fetched(items: seq<T>, requests: nat)

  function Concat<T>(pages: seq<seq<T>>): seq<T>
    decreases |pages|
  {
    if |pages| == 0 then [] else pages[0] + Concat(pages[1..])
  }

  /** The paging loop: request pages in order, appending each, and stop after
      the first page holding fewer than `size` items. `None` means every page
      offered was full, so the loop would still be requesting. */
  function FetchAll<T>(pages: seq<seq<T>>, size: nat): (r: Option<Fetched<T>>)
    decreases |pages|
  {
    if |pages| == 0 then None
    else if |pages[0]| < size then Some(Fetched(pages[0], 1))
    else
      match FetchAll(pages[1..], size)
      case None => None
      case Some(rest) => Some(Fetched(pages[0] + rest.items, rest.requests + 1))
  }

  /** The loop stops exactly when some page is short; it then has issued one
      request per page up to and including the first short page, and returns
      the concatenation of those pages. In particular a full page is always
      followed by another request. */
  lemma {:induction false} FetchAllStopsAtFirstShortPage<T>(pages: seq<seq<T>>, size: nat)
    ensures FetchAll(pages, size).Some? <==> exists i :: 0 <= i < |pages| && |pages[i]| < size
    ensures var r := FetchAll(pages, size);
            r.Some? ==> && 1 <= r.value.requests <= |pages|
                        && |pages[r.value.requests - 1]| < size
                        && (forall i :: 0 <= i < r.value.requests - 1 ==> |pages[i]| >= size)
                        && r.value.items == Concat(pages[..r.value.requests])
    decreases |pages|
  {
    if |pages| == 0 {
    } else if |pages[0]| < size {
      assert Concat(pages[..1]) == pages[0] + Concat(pages[..1][1..]);
    } else {
      FetchAllStopsAtFirstShortPage(pages[1..], size);
      assert forall i :: 0 < i < |pages| ==> pages[1..][i - 1] == pages[i];
      var r := FetchAll(pages[1..], size);
      if r.Some? {
        assert pages[..r.value.requests + 1][1..] == pages[1..][..r.value.requests];
      }
    }
  }

  /** How a tracker holding `xs` answers the paging loop: full pages, then one
      short (possibly empty) page. */
  function Paged<T>(xs: seq<T>, size: nat): seq<seq<T>>
    requires size > 0
    decreases |xs|
  {
    if |xs| < size then [xs] else [xs[..size]] + Paged(xs[size..], size)
  }

  /** Paging a list and fetching it back returns the list, after one request
      per page offered. */
  lemma {:induction false} FetchPaged<T>(xs: seq<T>, size: nat)
    requires size > 0
    ensures FetchAll(Paged(xs, size), size) == Some(Fetched(xs, |Paged(xs, size)|))
    decreases |xs|
  {
    if |xs| >= size {
      var pages := Paged(xs, size);
      var rest := xs[size..];
      assert pages[0] == xs[..size];
      assert pages[1..] == Paged(rest, size);
      FetchPaged(rest, size);
      assert xs[..size] + rest == xs;
    }
  }

  /** One request per full page of `xs`, plus one for the final short page:
      the number of requests is the least `k` with `|xs| < k * size`. */
  lemma {:induction false} PagedCount<T>(xs: seq<T>, size: nat)
    requires size > 0
    ensures (|Paged(xs, size)| - 1) * size <= |xs| < |Paged(xs, size)| * size
    decreases |xs|
  {
    if |xs| >= size {
      var k := |Paged(xs[size..], size)|;
      PagedCount(xs[size..], size);
      assert |Paged(xs, size)| == k + 1;
      assert (k + 1) * size == k * size + size;
    }
  }

  /** A list exactly one page long costs two requests, the second answered
      with an empty page. */
  lemma FullPageBoundary<T>(xs: seq<T>, size: nat)
    requires size > 0 && |xs| == size
    ensures Paged(xs, size) == [xs, []]
    ensures FetchAll(Paged(xs, size), size) == Some(Fetched(xs, 2))
  {
    assert xs[size..] == [];
    assert xs[..size] == xs;
    FetchPaged(xs, size);
  }

  /** One record of the issue listing; a missing `html_url` key is `None`. */
  datatype IssueRecord = IssueRecord(number: nat, htmlUrl: Option<string>)

  /** One answer of the listing endpoint: its HTTP status and its records. */
  datatype IssuePage = IssuePage(status: int, issues: seq<IssueRecord>)

  datatype Listing = Listed(numbers: seq<nat>) | Rejected(status: int) | Unending

  /** The filter of migration_lib.py:49: the record's URL (empty when missing)
      must end with `/issues/<number>`. */
  predicate IsIssue(r: IssueRecord) {
    EndsWith(r.htmlUrl.GetOr(""), "/issues/" + IdString(r.number))
  }

  function KeepIssues(rs: seq<IssueRecord>): (r: seq<nat>)
    decreases |rs|
  {
    if |rs| == 0 then []
    else (if IsIssue(rs[0]) then [rs[0].number] else []) + KeepIssues(rs[1..])
  }

  lemma {:induction false} KeepIssuesAppend(a: seq<IssueRecord>, b: seq<IssueRecord>)
    ensures KeepIssues(a + b) == KeepIssues(a) + KeepIssues(b)
    decreases |a|
  {
    if |a| == 0 {
      assert a + b == b;
    } else {
      assert (a + b)[0] == a[0];
      assert (a + b)[1..] == a[1..] + b;
      KeepIssuesAppend(a[1..], b);
    }
  }

  /** The raw records of every page, as the length test sees them. */
  function Raw(pages: seq<IssuePage>): seq<seq<IssueRecord>> {
    seq(|pages|, i requires 0 <= i < |pages| => pages[i].issues)
  }

  /** Every page up to the `n`-th was answered with status 200. */
  predicate AllOk(pages: seq<IssuePage>, n: nat) {
    forall i :: 0 <= i < n && i < |pages| ==> pages[i].status == 200
  }

  /** `get_github_issues`: page through the listing, failing on the first
      non-200 answer, keeping the numbers of the records that pass IsIssue. The
      stop test counts the unfiltered records of the page. */
  function ListIssues(pages: seq<IssuePage>): (r: Listing)
    ensures r.Rejected? ==> r.status != 200
    decreases |pages|
  {
    if |pages| == 0 then Unending
    else if pages[0].status != 200 then Rejected(pages[0].status)
    else if |pages[0].issues| < IssuesPerPage then Listed(KeepIssues(pages[0].issues))
    else
      match ListIssues(pages[1..])
      case Listed(ns) => Listed(KeepIssues(pages[0].issues) + ns)
      case other => other
  }

  /** Unfolding one full, accepted page of the listing. */
  lemma ListIssuesStep(pages: seq<IssuePage>)
    requires |pages| > 0 && pages[0].status == 200 && |pages[0].issues| >= IssuesPerPage
    ensures var f := FetchAll(Raw(pages), IssuesPerPage);
            var g := FetchAll(Raw(pages[1..]), IssuesPerPage);
            f.Some? <==> g.Some?
    ensures var f := FetchAll(Raw(pages), IssuesPerPage);
            var g := FetchAll(Raw(pages[1..]), IssuesPerPage);
            f.Some? ==> f.value.requests == g.value.requests + 1
                        && f.value.items == pages[0].issues + g.value.items
                        && (AllOk(pages, f.value.requests) <==> AllOk(pages[1..], g.value.requests))
  {
    assert Raw(pages)[1..] == Raw(pages[1..]);
    assert Raw(pages)[0] == pages[0].issues;
    assert forall i :: 0 < i < |pages| ==> pages[1..][i - 1] == pages[i];
  }

  /** The listing succeeds exactly when the shared paging loop over the raw
      records stops and every page it requested was answered with 200; the
      numbers are then the filtered records of those pages, in order. */
  lemma {:induction false} ListIssuesIsFilteredFetch(pages: seq<IssuePage>)
    ensures var f := FetchAll(Raw(pages), IssuesPerPage);
            ListIssues(pages).Listed? <==> f.Some? && AllOk(pages, f.value.requests)
    ensures var f := FetchAll(Raw(pages), IssuesPerPage);
            ListIssues(pages).Listed? ==> ListIssues(pages).numbers == KeepIssues(f.value.items)
    decreases |pages|
  {
    if |pages| == 0 {
    } else if pages[0].status != 200 {
      assert Raw(pages)[0] == pages[0].issues;
    } else if |pages[0].issues| < IssuesPerPage {
      assert Raw(pages)[0] == pages[0].issues;
      assert Raw(pages)[..1] == [pages[0].issues];
      assert Concat([pages[0].issues]) == pages[0].issues + Concat([pages[0].issues][1..]);
    } else {
      ListIssuesIsFilteredFetch(pages[1..]);
      ListIssuesStep(pages);
      if ListIssues(pages[1..]).Listed? {
        KeepIssuesAppend(pages[0].issues, FetchAll(Raw(pages[1..]), IssuesPerPage).value.items);
      }
    }
  }

  /** A failed listing reports the status of a page that every earlier,
      full page let the loop reach. */
  lemma {:induction false} ListIssuesRejects(pages: seq<IssuePage>)
    ensures ListIssues(pages).Rejected? ==>
              exists i :: 0 <= i < |pages| && pages[i].status == ListIssues(pages).status
                          && AllOk(pages, i) && (forall j :: 0 <= j < i ==> |pages[j].issues| >= IssuesPerPage)
    decreases |pages|
  {
    if |pages| > 0 && pages[0].status == 200 && |pages[0].issues| >= IssuesPerPage {
      var tail := pages[1..];
      ListIssuesRejects(tail);
      if ListIssues(tail).Rejected? {
        var i :| 0 <= i < |tail| && tail[i].status == ListIssues(tail).status && AllOk(tail, i)
                 && (forall j :: 0 <= j < i ==> |tail[j].issues| >= IssuesPerPage);
        assert pages[i + 1] == tail[i];
        assert forall j :: 0 < j <= i ==> pages[j] == tail[j - 1];
        assert AllOk(pages, i + 1);
      }
    } else if |pages| > 0 {
      assert AllOk(pages, 0);
    }
  }

  /** A record without `html_url` is never listed. */
  lemma MissingUrlNeverListed(n: nat)
    ensures !IsIssue(IssueRecord(n, None))
  {
  }

  /** An issue's own URL passes the filter; the URL of a pull request with the
      same number does not. */
  lemma IssueUrlsOnly(base: string, n: nat)
    ensures IsIssue(IssueRecord(n, Some(base + "/issues/" + IdString(n))))
    ensures !IsIssue(IssueRecord(n, Some(base + "/pull/" + IdString(n))))
  {
    var d := IdString(n);
    var issueUrl := base + "/issues/" + d;
    assert issueUrl[|issueUrl| - |"/issues/" + d|..] == "/issues/" + d;
    var pull := base + "/pull/" + d;
    if |"/issues/" + d| <= |pull| {
      var tail := pull[|pull| - |"/issues/" + d|..];
      assert pull[|pull| - |d| - 2] == 'l';
      assert tail[6] == pull[|pull| - |d| - 2];
      assert ("/issues/" + d)[6] == 's';
    }
  }
}

=== FILE: reconcile.dfy ===
/** The comment reconciler of `sync_github_issue` (migration_lib.py:141-191):
    the correspondence map read from the destination notes, the mirrored
    body of a source comment, and the per-comment plan with its execution. */
module Reconcile {
  import opened Wrappers
  import opened Text
  import opened Markers
  import opened Linkage

  /** A destination-side note: its id and its body. */
  datatype Note = Note(id: nat, body: string)

  /** What the correspondence map remembers of a note. */
  datatype Entry = Entry(body: string, noteId: nat)

  /** Source comment id (as text) to the note mirroring it. */
  type Correspondence = map<string, Entry>

  /** The note has a mirror marker line naming key `k`. */
  predicate Carries(n: Note, k: string) {
    k in MirrorKeys(n.body)
  }

  /** The inner loop over one note's lines: every marker line (re)binds its
      key to the note. */
  function RecordLines(m: Correspondence, lines: seq<string>, e: Entry): Correspondence
    decreases |lines|
  {
    if |lines| == 0 then m
    else
      var m' := match MatchMarker(MirrorPrefix, lines[0]) case Some(d) => m[d := e] case None => m;
      RecordLines(m', lines[1..], e)
  }

  /** The outer loop over the notes, in the order fetched. */
  function RecordNotes(m: Correspondence, notes: seq<Note>): Correspondence
    decreases |notes|
  {
    if |notes| == 0 then m
    else RecordNotes(RecordLines(m, Lines(notes[0].body), Entry(notes[0].body, notes[0].id)), notes[1..])
  }

  /** The map `cross_post_gitlab_comments` built from all fetched notes. */
  function CorrespondenceOf(notes: seq<Note>): Correspondence {
    RecordNotes(map[], notes)
  }

  lemma {:induction false} RecordLinesSpec(m: Correspondence, lines: seq<string>, e: Entry, k: string)
    ensures k in LineKeys(MirrorPrefix, lines) ==> k in RecordLines(m, lines, e) && RecordLines(m, lines, e)[k] == e
    ensures k !in LineKeys(MirrorPrefix, lines) ==>
              (k in RecordLines(m, lines, e) <==> k in m)
              && (k in m ==> RecordLines(m, lines, e)[k] == m[k])
    decreases |lines|
  {
    if |lines| > 0 {
      var m' := match MatchMarker(MirrorPrefix, lines[0]) case Some(d) => m[d := e] case None => m;
      RecordLinesSpec(m', lines[1..], e, k);
    }
  }

  /** Recording notes into `m` binds exactly the keys of `m` and the keys some
      note carries. */
  lemma {:induction false} RecordNotesKeys(m: Correspondence, notes: seq<Note>, k: string)
    ensures k in RecordNotes(m, notes) <==> k in m || exists i :: 0 <= i < |notes| && Carries(notes[i], k)
    decreases |notes|
  {
    if |notes| > 0 {
      var e := Entry(notes[0].body, notes[0].id);
      var m' := RecordLines(m, Lines(notes[0].body), e);
      var rest := notes[1..];
      RecordLinesSpec(m, Lines(notes[0].body), e, k);
      RecordNotesKeys(m', rest, k);
      if exists i :: 0 <= i < |rest| && Carries(rest[i], k) {
        var i :| 0 <= i < |rest| && Carries(rest[i], k);
        assert notes[i + 1] == rest[i];
      }
      if exists i :: 0 <= i < |notes| && Carries(notes[i], k) {
        var i :| 0 <= i < |notes| && Carries(notes[i], k);
        if i > 0 { assert rest[i - 1] == notes[i]; }
      }
    }
  }

  /** A key no note carries keeps its old binding. */
  lemma {:induction false} RecordNotesUntouched(m: Correspondence, notes: seq<Note>, k: string)
    requires forall i :: 0 <= i < |notes| ==> !Carries(notes[i], k)
    requires k in m
    ensures k in RecordNotes(m, notes) && RecordNotes(m, notes)[k] == m[k]
    decreases |notes|
  {
    if |notes| > 0 {
      var e := Entry(notes[0].body, notes[0].id);
      var m' := RecordLines(m, Lines(notes[0].body), e);
      var rest := notes[1..];
      RecordLinesSpec(m, Lines(notes[0].body), e, k);
      assert forall i :: 0 <= i < |rest| ==> rest[i] == notes[i + 1];
      RecordNotesUntouched(m', rest, k);
    }
  }

  /** A key ends up bound to the last note carrying it. */
  lemma {:induction false} RecordNotesLast(m: Correspondence, notes: seq<Note>, k: string, i: nat)
    requires i < |notes| && Carries(notes[i], k)
    requires forall j :: i < j < |notes| ==> !Carries(notes[j], k)
    ensures k in RecordNotes(m, notes) && RecordNotes(m, notes)[k] == Entry(notes[i].body, notes[i].id)
    decreases |notes|
  {
    var e := Entry(notes[0].body, notes[0].id);
    var m' := RecordLines(m, Lines(notes[0].body), e);
    var rest := notes[1..];
    assert forall j :: 0 <= j < |rest| ==> rest[j] == notes[j + 1];
    if i > 0 {
      RecordNotesLast(m', rest, k, i - 1);
    } else {
      RecordLinesSpec(m, Lines(notes[0].body), e, k);
      RecordNotesUntouched(m', rest, k);
    }
  }

  /** A key is in the correspondence map exactly when some note carries it. */
  lemma CorrespondenceKeys(notes: seq<Note>, k: string)
    ensures k in CorrespondenceOf(notes) <==> exists i :: 0 <= i < |notes| && Carries(notes[i], k)
  {
    RecordNotesKeys(map[], notes, k);
  }

  /** Last wins: a key is bound to the last note carrying it, whatever earlier
      notes or earlier lines said. */
  lemma CorrespondenceLast(notes: seq<Note>, k: string, i: nat)
    requires i < |notes| && Carries(notes[i], k)
    requires forall j :: i < j < |notes| ==> !Carries(notes[j], k)
    ensures k in CorrespondenceOf(notes) && CorrespondenceOf(notes)[k] == Entry(notes[i].body, notes[i].id)
  {
    RecordNotesLast(map[], notes, k, i);
  }

  /** Every binding comes from a note carrying the key, with nothing carrying
      it after that note. */
  lemma CorrespondenceFrom(notes: seq<Note>, k: string)
    requires k in CorrespondenceOf(notes)
    ensures exists i :: 0 <= i < |notes| && Carries(notes[i], k)
                        && CorrespondenceOf(notes)[k] == Entry(notes[i].body, notes[i].id)
                        && forall j :: i < j < |notes| ==> !Carries(notes[j], k)
  {
    CorrespondenceKeys(notes, k);
    var i :| 0 <= i < |notes| && Carries(notes[i], k);
    var last := i;
    while last + 1 < |notes| && exists j :: last < j < |notes| && Carries(notes[j], k)
      invariant i <= last < |notes| && Carries(notes[last], k)
      decreases |notes| - last
    {
      var next :| last < next < |notes| && Carries(notes[next], k);
      last := next;
    }
    CorrespondenceLast(notes, k, last);
  }

  /** The labels of the author line and the link line of a mirrored body. */
  const AuthorTag: string := "From @"
  const LinkTag: string := "Link: "

  lemma TagsSingleLine()
    ensures |AuthorTag| > 0 && AuthorTag[0] == 'F' && !HasNewline(AuthorTag)
    ensures |LinkTag| > 0 && LinkTag[0] == 'L' && !HasNewline(LinkTag)
  {
  }

  /** `get_gitlab_comment_body`: the note mirroring a source comment, ending
      in the comment's own mirror marker line. */
  function CanonicalBody(c: SourceComment): (r: string) {
    AuthorTag + c.login + "\n\n" + c.body + "\n\n" + LinkTag + c.htmlUrl + "\n\n" + MirrorPrefix + IdString(c.id)
  }

  /** The key under which a source comment is looked up: `str(id)`. */
  function Key(c: SourceComment): string {
    IdString(c.id)
  }

  /** None of the comment's texts has a line that reads as a mirror marker. */
  predicate Clean(c: SourceComment) {
    MirrorKeys(c.body) == {} && MirrorKeys(c.login) == {} && MirrorKeys(c.htmlUrl) == {}
  }

  /** The lines of a labelled field: the tag fused with the field's first
      line cannot be a mirror marker, so only the field's own later lines can
      contribute keys. */
  lemma LabelledKeys(tag: string, field: string)
    requires |tag| > 0 && tag[0] != 'g' && !HasNewline(tag)
    ensures LineKeys(MirrorPrefix, Lines(tag + field)) <= MirrorKeys(field)
  {
    var ls := Lines(field);
    LinesPrefixed(tag, field);
    assert Lines(tag + field) == [tag + ls[0]] + ls[1..];
    LineKeysAppend(MirrorPrefix, [tag + ls[0]], ls[1..]);
    LineKeysAppend(MirrorPrefix, [ls[0]], ls[1..]);
    assert [ls[0]] + ls[1..] == ls;
    NotMarker(MirrorPrefix, tag + ls[0]);
    assert [tag + ls[0]][1..] == [];
  }

  /** Two texts separated by a blank line: the blank line sits between their
      lines. */
  lemma BlankLineBetween(a: string, b: string)
    ensures Lines(a + "\n\n" + b) == Lines(a) + [""] + Lines(b)
  {
    assert a + "\n\n" + b == a + "\n" + ("" + "\n" + b);
    LinesAround(a, "" + "\n" + b);
    LinesAround("", b);
    SingleLine("");
  }

  /** The line structure of a mirrored body. */
  lemma CanonicalLines(c: SourceComment)
    ensures Lines(CanonicalBody(c))
            == Lines(AuthorTag + c.login) + [""] + Lines(c.body) + [""] + Lines(LinkTag + c.htmlUrl)
               + [""] + [MirrorPrefix + IdString(c.id)]
  {
    var a := AuthorTag + c.login;
    var b := LinkTag + c.htmlUrl;
    var mk := MirrorPrefix + IdString(c.id);
    var t2 := b + "\n\n" + mk;
    var t1 := c.body + "\n\n" + t2;
    assert CanonicalBody(c) == a + "\n\n" + t1;
    PrefixesSingleLine();
    MarkerLine(MirrorPrefix, c.id);
    SingleLine(mk);
    BlankLineBetween(b, mk);
    BlankLineBetween(c.body, t2);
    BlankLineBetween(a, t1);
  }

  /** Keys of the seven-part line layout of a mirrored body. */
  lemma LayoutKeys(la: seq<string>, lbody: seq<string>, lb: seq<string>, last: string)
    ensures LineKeys(MirrorPrefix, la + [""] + lbody + [""] + lb + [""] + [last])
            == LineKeys(MirrorPrefix, la) + LineKeys(MirrorPrefix, lbody) + LineKeys(MirrorPrefix, lb)
               + LineKeys(MirrorPrefix, [last])
  {
    var s1 := la + [""];
    var s2 := s1 + lbody;
    var s3 := s2 + [""];
    var s4 := s3 + lb;
    var s5 := s4 + [""];
    LineKeysAppend(MirrorPrefix, s5, [last]);
    LineKeysAppend(MirrorPrefix, s4, [""]);
    LineKeysAppend(MirrorPrefix, s3, lb);
    LineKeysAppend(MirrorPrefix, s2, [""]);
    LineKeysAppend(MirrorPrefix, s1, lbody);
    LineKeysAppend(MirrorPrefix, la, [""]);
    assert LineKeys(MirrorPrefix, [""]) == {};
  }

  /** The keys of a mirrored body: those of its parts, plus its marker's. */
  lemma CanonicalKeysByPart(c: SourceComment)
    ensures MirrorKeys(CanonicalBody(c))
            == LineKeys(MirrorPrefix, Lines(AuthorTag + c.login)) + MirrorKeys(c.body)
               + LineKeys(MirrorPrefix, Lines(LinkTag + c.htmlUrl)) + {Key(c)}
  {
    var mk := MirrorPrefix + IdString(c.id);
    CanonicalLines(c);
    LayoutKeys(Lines(AuthorTag + c.login), Lines(c.body), Lines(LinkTag + c.htmlUrl), mk);
    PrefixesSingleLine();
    MarkerLine(MirrorPrefix, c.id);
    assert LineKeys(MirrorPrefix, [mk]) == {Key(c)};
  }

  /** The mirrored body carries its own key; when the comment is Clean it
      carries no other. */
  lemma CanonicalKeys(c: SourceComment)
    ensures Key(c) in MirrorKeys(CanonicalBody(c))
    ensures Clean(c) ==> MirrorKeys(CanonicalBody(c)) == {Key(c)}
  {
    CanonicalKeysByPart(c);
    TagsSingleLine();
    LabelledKeys(AuthorTag, c.login);
    LabelledKeys(LinkTag, c.htmlUrl);
    KeysOfParts(MirrorKeys(CanonicalBody(c)),
                LineKeys(MirrorPrefix, Lines(AuthorTag + c.login)), MirrorKeys(c.body),
                LineKeys(MirrorPrefix, Lines(LinkTag + c.htmlUrl)),
                MirrorKeys(c.login), MirrorKeys(c.htmlUrl), Key(c));
  }

  /** The set reasoning behind CanonicalKeys, kept apart from the texts. */
  lemma KeysOfParts(all: set<string>, head: set<string>, middle: set<string>, tail: set<string>,
                    headBound: set<string>, tailBound: set<string>, k: string)
    requires all == head + middle + tail + {k}
    requires head <= headBound && tail <= tailBound
    ensures k in all
    ensures headBound == {} && middle == {} && tailBound == {} ==> all == {k}
  {
  }

  /** One planned outcome per source comment. */
  datatype Action = Skip | Create(body: string) | Update(noteId: nat, body: string) | UpToDate

  /** `str(gitlab_cross_post_comment_id)`: Python prints a missing id as "None". */
  function ExcludedText(excluded: Option<nat>): string {
    match excluded
    case Some(x) => IdString(x)
    case None => "None"
  }

  /** The loop body of step 6 for one source comment. */
  function Decide(c: SourceComment, m: Correspondence, excluded: Option<nat>): (r: Action)
    ensures r.Skip? <==> excluded == Some(c.id)
    ensures r.Create? <==> excluded != Some(c.id) && Key(c) !in m
    ensures r.Create? ==> r.body == CanonicalBody(c)
    ensures r.Update? <==> excluded != Some(c.id) && Key(c) in m
                           && StripCR(m[Key(c)].body) != StripCR(CanonicalBody(c))
    ensures r.Update? ==> r.noteId == m[Key(c)].noteId && r.body == CanonicalBody(c)
  {
    var key := Key(c);
    assert key == ExcludedText(excluded) <==> excluded == Some(c.id) by {
      if excluded.Some? {
        IdStringInjective(c.id, excluded.value);
      } else {
        assert IsDigit(key[0]);
      }
    }
    if key == ExcludedText(excluded) then Skip
    else if key !in m then Create(CanonicalBody(c))
    else if StripCR(m[key].body) != StripCR(CanonicalBody(c)) then Update(m[key].noteId, CanonicalBody(c))
    else UpToDate
  }

  /** The whole step-6 loop: every source comment gets exactly one outcome,
      decided against the same map (creating a note does not update it). */
  function Plan(comments: seq<SourceComment>, m: Correspondence, excluded: Option<nat>): (r: seq<Action>)
    ensures |r| == |comments|
  {
    seq(|comments|, i requires 0 <= i < |comments| => Decide(comments[i], m, excluded))
  }

  /** The mutating requests of the synchroniser. Nothing ever deletes. */
  datatype Call =
    | CreateIssue(title: Option<string>, description: string)
    | PostComment(body: string)
    | CreateNote(body: string)
    | UpdateNote(noteId: nat, body: string)

  /** The request an action issues, if any. */
  function CallsOf(a: Action): seq<Call> {
    match a
    case Create(b) => [CreateNote(b)]
    case Update(x, b) => [UpdateNote(x, b)]
    case _ => []
  }

  /** The requests of a whole plan, in order. */
  function Requests(plan: seq<Action>): seq<Call>
    decreases |plan|
  {
    if |plan| == 0 then [] else CallsOf(plan[0]) + Requests(plan[1..])
  }

  /** HTTP status the destination answers to the note created for the comment
      at position `i`; positions not listed are answered 201. */
  function StatusAt(status: map<nat, int>, i: nat): int {
    if i in status then status[i] else 201
  }

  /** The requests issued, and the status that aborted the loop, if any. */
  datatype Execution = Execution(calls: seq<Call>, rejected: Option<int>)

  /** Step 6 from position `i` on: creates are status-checked and a non-201
      answer aborts everything after it; updates are not checked. */
  function ExecuteFrom(plan: seq<Action>, status: map<nat, int>, i: nat): (r: Execution)
    requires i <= |plan|
    ensures (forall k :: i <= k < |plan| && plan[k].Create? ==> StatusAt(status, k) == 201)
              ==> r == Execution(Requests(plan[i..]), None)
    ensures forall k :: i <= k < |plan| && plan[k].Create? && StatusAt(status, k) != 201
                        && (forall j :: i <= j < k && plan[j].Create? ==> StatusAt(status, j) == 201)
              ==> r == Execution(Requests(plan[i..k + 1]), Some(StatusAt(status, k)))
    decreases |plan| - i
  {
    if i == |plan| then Execution([], None)
    else
      assert plan[i..][1..] == plan[i + 1..];
      assert Requests(plan[i..i + 1]) == CallsOf(plan[i]) + Requests(plan[i..i + 1][1..]);
      match plan[i]
      case Create(b) =>
        if StatusAt(status, i) != 201 then Execution([CreateNote(b)], Some(StatusAt(status, i)))
        else
          var rest := ExecuteFrom(plan, status, i + 1);
          Execution([CreateNote(b)] + rest.calls, rest.rejected)
      case Update(x, b) =>
        var rest := ExecuteFrom(plan, status, i + 1);
        Execution([UpdateNote(x, b)] + rest.calls, rest.rejected)
      case _ => ExecuteFrom(plan, status, i + 1)
  }
}

=== FILE: sync.dfy ===
/** One synchronisation of a source issue (migration_lib.py:57-191), as a
    pure function of what the two trackers answer. Reads are given as page
    sequences, the two create requests whose answers the code inspects are
    given as their replies, and the per-note create statuses as a map. */
module Sync {
  import opened Wrappers
  import opened Text
  import opened Paging
  import opened Linkage
  import opened Reconcile
  import opened Idempotence

  /** What the destination answers to the issue-create request: its `iid`
      and `web_url` fields, either of which may be absent. */
  datatype CreateReply = CreateReply(iid: Option<nat>, webUrl: Option<string>)

  /** What the source answers to the announcement post: the HTTP status and
      the `id` of the posted comment, if any. */
  datatype PostReply = PostReply(status: int, id: Option<nat>)

  /** Why a synchronisation stops with an exception. */
  datatype SyncError =
    | IssueNotCreated
    | AnnouncementRejected(status: int)
    | NoteRejected(status: int)

  /** How a synchronisation ends, with the mutating requests it issued.
      `Endless` is a paging loop that never sees a short page among the
      pages offered; it keeps the requests issued before the loop. */
  datatype Run =
    | Completed(issueId: string, calls: seq<Call>)
    | Failed(error: SyncError, calls: seq<Call>)
    | Endless(calls: seq<Call>)

  /** A field interpolated into text: an absent value prints as "None". */
  function Shown(v: Option<string>): string {
    match v
    case Some(s) => s
    case None => "None"
  }

  /** Steps 5 and 6 against destination issue `issueId`, after the requests
      `prior` were issued. */
  function ReconcileIssue(issueId: string, comments: seq<SourceComment>, excluded: Option<nat>, prior: seq<Call>,
                          notePages: seq<seq<Note>>, status: map<nat, int>): (r: Run)
  {
    match FetchAll(notePages, CommentsPerPage)
    case None => Endless(prior)
    case Some(fetched) =>
      var plan := Plan(comments, CorrespondenceOf(fetched.items), excluded);
      var done := ExecuteFrom(plan, status, 0);
      match done.rejected
      case None => Completed(issueId, prior + done.calls)
      case Some(s) => Failed(NoteRejected(s), prior + done.calls)
  }

  /** The whole of `sync_github_issue` for one source issue. */
  function SyncIssue(issue: SourceIssue, commentPages: seq<seq<SourceComment>>, created: CreateReply,
                     announced: PostReply, notePages: seq<seq<Note>>, status: map<nat, int>): (r: Run)
  {
    match FetchAll(commentPages, CommentsPerPage)
    case None => Endless([])
    case Some(fetched) =>
      var comments := fetched.items;
      match Resolve(comments)
      case Linked(issueId, announcer) => ReconcileIssue(issueId, comments, Some(announcer), [], notePages, status)
      case Unlinked =>
        var createIssue := CreateIssue(issue.title, Description(issue));
        match created.iid
        case None => Failed(IssueNotCreated, [createIssue])
        case Some(iid) =>
          var announce := PostComment(Announcement(Shown(created.webUrl), iid));
          if announced.status != 201 then Failed(AnnouncementRejected(announced.status), [createIssue, announce])
          else ReconcileIssue(IdString(iid), comments, announced.id, [createIssue, announce], notePages, status)
  }

  /** Every call creates or updates a destination note. */
  predicate NoteCallsOnly(calls: seq<Call>) {
    forall i :: 0 <= i < |calls| ==> calls[i].CreateNote? || calls[i].UpdateNote?
  }

  lemma {:induction false} RequestsAreNoteCalls(plan: seq<Action>)
    ensures NoteCallsOnly(Requests(plan))
    decreases |plan|
  {
    if |plan| > 0 {
      RequestsAreNoteCalls(plan[1..]);
    }
  }

  /** Whatever the create statuses, step 6 issues only note requests. */
  lemma ExecutionNoteCalls(plan: seq<Action>, status: map<nat, int>)
    ensures NoteCallsOnly(ExecuteFrom(plan, status, 0).calls)
  {
    assert plan[0..] == plan;
    if forall k :: 0 <= k < |plan| && plan[k].Create? ==> StatusAt(status, k) == 201 {
      RequestsAreNoteCalls(plan);
    } else {
      var k := 0;
      while !(plan[k].Create? && StatusAt(status, k) != 201)
        invariant 0 <= k < |plan|
        invariant forall j :: 0 <= j < k && plan[j].Create? ==> StatusAt(status, j) == 201
        invariant exists j :: k <= j < |plan| && plan[j].Create? && StatusAt(status, j) != 201
        decreases |plan| - k
      {
        k := k + 1;
      }
      RequestsAreNoteCalls(plan[0..k + 1]);
    }
  }

  /** An issue already linked is reconciled against the linked destination
      issue, leaving out the announcing comment; no issue is created and no
      comment is posted on the source side. */
  lemma LinkedIssueOnlyTouchesNotes(issue: SourceIssue, commentPages: seq<seq<SourceComment>>, created: CreateReply,
                                    announced: PostReply, notePages: seq<seq<Note>>, status: map<nat, int>)
    requires FetchAll(commentPages, CommentsPerPage).Some?
    requires Resolve(FetchAll(commentPages, CommentsPerPage).value.items).Linked?
    ensures var r := SyncIssue(issue, commentPages, created, announced, notePages, status);
            var link := Resolve(FetchAll(commentPages, CommentsPerPage).value.items);
            (r.Completed? ==> r.issueId == link.issueId)
            && (r.Failed? ==> r.error.NoteRejected?)
            && NoteCallsOnly(r.calls)
  {
    var cs := FetchAll(commentPages, CommentsPerPage).value.items;
    var link := Resolve(cs);
    match FetchAll(notePages, CommentsPerPage)
    case None =>
    case Some(fetched) =>
      ExecutionNoteCalls(Plan(cs, CorrespondenceOf(fetched.items), Some(link.announcedBy)), status);
  }

  /** An unlinked issue first gets a destination issue created, titled and
      described from the source issue; a reply without an `iid` stops the run
      there, and a rejected announcement stops it after the post. */
  lemma UnlinkedIssueIsCreatedFirst(issue: SourceIssue, commentPages: seq<seq<SourceComment>>, created: CreateReply,
                                    announced: PostReply, notePages: seq<seq<Note>>, status: map<nat, int>)
    requires FetchAll(commentPages, CommentsPerPage).Some?
    requires Resolve(FetchAll(commentPages, CommentsPerPage).value.items).Unlinked?
    ensures var r := SyncIssue(issue, commentPages, created, announced, notePages, status);
            var createIssue := CreateIssue(issue.title, Description(issue));
            (created.iid.None? ==> r == Failed(IssueNotCreated, [createIssue]))
            && (created.iid.Some? && announced.status != 201 ==>
                  r == Failed(AnnouncementRejected(announced.status),
                              [createIssue, PostComment(Announcement(Shown(created.webUrl), created.iid.value))]))
            && (created.iid.Some? && announced.status == 201 ==>
                  |r.calls| >= 2 && r.calls[0] == createIssue
                  && r.calls[1] == PostComment(Announcement(Shown(created.webUrl), created.iid.value))
                  && NoteCallsOnly(r.calls[2..])
                  && (r.Completed? ==> r.issueId == IdString(created.iid.value))
                  && (r.Failed? ==> r.error.NoteRejected?))
  {
    var cs := FetchAll(commentPages, CommentsPerPage).value.items;
    if created.iid.Some? && announced.status == 201 {
      match FetchAll(notePages, CommentsPerPage)
      case None =>
      case Some(fetched) =>
        var plan := Plan(cs, CorrespondenceOf(fetched.items), announced.id);
        ExecutionNoteCalls(plan, status);
        var prior := [CreateIssue(issue.title, Description(issue)),
                      PostComment(Announcement(Shown(created.webUrl), created.iid.value))];
        assert (prior + ExecuteFrom(plan, status, 0).calls)[2..] == ExecuteFrom(plan, status, 0).calls;
    }
  }

  /** Appending a comment appends its decision. */
  lemma PlanAppend(cs: seq<SourceComment>, c: SourceComment, m: Correspondence, excluded: Option<nat>)
    ensures Plan(cs + [c], m, excluded) == Plan(cs, m, excluded) + [Decide(c, m, excluded)]
  {
    assert forall i :: 0 <= i < |cs| ==> (cs + [c])[i] == cs[i];
  }

  /** A quiet plan runs to completion without any POST or PUT. */
  lemma QuietExecution(plan: seq<Action>, status: map<nat, int>)
    requires Quiet(plan)
    ensures ExecuteFrom(plan, status, 0) == Execution([], None)
  {
    assert plan[0..] == plan;
    QuietRequests(plan);
  }

  /** The announcement as the source lists it on later runs. */
  function AnnouncementComment(created: CreateReply, announced: PostReply, login: string, htmlUrl: string): SourceComment
    requires created.iid.Some? && announced.id.Some?
  {
    SourceComment(announced.id.value, Announcement(Shown(created.webUrl), created.iid.value), login, htmlUrl)
  }

  /** Steps 5-6 over notes served in full pages, every create accepted:
      the run completes after issuing every request of the plan. */
  lemma ReconcileAccepted(issueId: string, cs: seq<SourceComment>, excluded: Option<nat>, prior: seq<Call>, ns: seq<Note>)
    ensures ReconcileIssue(issueId, cs, excluded, prior, Paged(ns, CommentsPerPage), map[])
            == Completed(issueId, prior + Requests(Plan(cs, CorrespondenceOf(ns), excluded)))
  {
    FetchPaged(ns, CommentsPerPage);
    var plan := Plan(cs, CorrespondenceOf(ns), excluded);
    assert plan[0..] == plan;
  }

  /** Steps 5-6 with a quiet plan: the run completes with no further request. */
  lemma ReconcileQuiet(issueId: string, cs: seq<SourceComment>, excluded: Option<nat>, prior: seq<Call>,
                       ns: seq<Note>, status: map<nat, int>)
    requires Quiet(Plan(cs, CorrespondenceOf(ns), excluded))
    ensures ReconcileIssue(issueId, cs, excluded, prior, Paged(ns, CommentsPerPage), status) == Completed(issueId, prior)
  {
    FetchPaged(ns, CommentsPerPage);
    QuietExecution(Plan(cs, CorrespondenceOf(ns), excluded), status);
    assert prior + [] == prior;
  }

  /** A linked issue goes straight to steps 5-6, leaving out the announcement. */
  lemma SyncLinked(issue: SourceIssue, cs: seq<SourceComment>, created: CreateReply, announced: PostReply,
                   notePages: seq<seq<Note>>, status: map<nat, int>)
    requires Resolve(cs).Linked?
    ensures SyncIssue(issue, Paged(cs, CommentsPerPage), created, announced, notePages, status)
            == ReconcileIssue(Resolve(cs).issueId, cs, Some(Resolve(cs).announcedBy), [], notePages, status)
  {
    FetchPaged(cs, CommentsPerPage);
  }

  /** Run 1 on an unlinked issue whose requests all succeed: it creates the
      destination issue, announces it, and mirrors every source comment as
      its plan says. */
  lemma FirstRunCompletes(issue: SourceIssue, cs: seq<SourceComment>, ns: seq<Note>, created: CreateReply, announced: PostReply)
    requires forall i :: 0 <= i < |cs| ==> LinkageOf(cs[i]).None?
    requires created.iid.Some? && announced.status == 201
    ensures SyncIssue(issue, Paged(cs, CommentsPerPage), created, announced, Paged(ns, CommentsPerPage), map[])
            == Completed(IdString(created.iid.value),
                         [CreateIssue(issue.title, Description(issue)),
                          PostComment(Announcement(Shown(created.webUrl), created.iid.value))]
                         + Requests(FirstPlan(cs, ns, announced.id)))
  {
    FetchPaged(cs, CommentsPerPage);
    ResolveUnlinked(cs);
    ReconcileAccepted(IdString(created.iid.value), cs, announced.id,
                      [CreateIssue(issue.title, Description(issue)),
                       PostComment(Announcement(Shown(created.webUrl), created.iid.value))], ns);
  }

  /** Idempotence of the whole synchronisation: once run 1 has completed,
      run 2 — seeing the same comments followed by the announcement, and the
      destination notes as run 1 left them — resolves the link, creates no
      second issue and sends no POST or PUT. */
  lemma SecondRunIsQuiet(issue: SourceIssue, cs: seq<SourceComment>, ns: seq<Note>, created: CreateReply,
                         announced: PostReply, login: string, htmlUrl: string, nextId: nat, order: Order,
                         issue2: SourceIssue, created2: CreateReply, announced2: PostReply, status2: map<nat, int>)
    requires Tidy(cs, ns)
    requires created.iid.Some? && announced.id.Some? && !HasNewline(Shown(created.webUrl))
    ensures SyncIssue(issue2, Paged(cs + [AnnouncementComment(created, announced, login, htmlUrl)], CommentsPerPage),
                      created2, announced2,
                      Paged(AfterRun(cs, ns, announced.id, nextId, order), CommentsPerPage), status2)
            == Completed(IdString(created.iid.value), [])
  {
    var ann := AnnouncementComment(created, announced, login, htmlUrl);
    var after := AfterRun(cs, ns, announced.id, nextId, order);
    var m2 := CorrespondenceOf(after);
    ResolveAfterAnnouncement(cs, Shown(created.webUrl), created.iid.value, announced.id.value, login, htmlUrl);
    SyncLinked(issue2, cs + [ann], created2, announced2, Paged(after, CommentsPerPage), status2);
    PlanAppend(cs, ann, m2, announced.id);
    SecondPlanIsQuiet(cs, ns, announced.id, nextId, order);
    assert Quiet(Plan(cs + [ann], m2, announced.id));
    ReconcileQuiet(IdString(created.iid.value), cs + [ann], announced.id, [], after, status2);
  }

  /** For an issue linked before run 1, run 1 only mirrors comments: it
      sends the requests of its plan and nothing else. */
  lemma LinkedFirstRun(issue: SourceIssue, cs: seq<SourceComment>, ns: seq<Note>,
                       created: CreateReply, announced: PostReply)
    requires Resolve(cs).Linked?
    ensures SyncIssue(issue, Paged(cs, CommentsPerPage), created, announced, Paged(ns, CommentsPerPage), map[])
            == Completed(Resolve(cs).issueId, Requests(FirstPlan(cs, ns, Some(Resolve(cs).announcedBy))))
  {
    var link := Resolve(cs);
    var excluded := Some(link.announcedBy);
    SyncLinked(issue, cs, created, announced, Paged(ns, CommentsPerPage), map[]);
    ReconcileAccepted(link.issueId, cs, excluded, [], ns);
    assert [] + Requests(FirstPlan(cs, ns, excluded)) == Requests(FirstPlan(cs, ns, excluded));
  }

  /** A rerun over the same comments and the notes run 1 left sends no POST
      or PUT. */
  lemma LinkedRerunIsQuiet(issue: SourceIssue, cs: seq<SourceComment>, ns: seq<Note>, nextId: nat, order: Order,
                           created: CreateReply, announced: PostReply, status2: map<nat, int>)
    requires Tidy(cs, ns) && Resolve(cs).Linked?
    ensures SyncIssue(issue, Paged(cs, CommentsPerPage), created, announced,
                      Paged(AfterRun(cs, ns, Some(Resolve(cs).announcedBy), nextId, order), CommentsPerPage), status2)
            == Completed(Resolve(cs).issueId, [])
  {
    var link := Resolve(cs);
    var excluded := Some(link.announcedBy);
    var after := AfterRun(cs, ns, excluded, nextId, order);
    SyncLinked(issue, cs, created, announced, Paged(after, CommentsPerPage), status2);
    SecondPlanIsQuiet(cs, ns, excluded, nextId, order);
    assert Quiet(Plan(cs, CorrespondenceOf(after), excluded));
    ReconcileQuiet(link.issueId, cs, excluded, [], after, status2);
  }

  /** A rejected announcement leaves the source issue unlinked although the
      destination issue exists, so the next run creates the destination issue
      again. */
  lemma RejectedAnnouncementRecreates(issue: SourceIssue, commentPages: seq<seq<SourceComment>>,
                                      created: CreateReply, announced: PostReply, notePages: seq<seq<Note>>,
                                      status: map<nat, int>, created2: CreateReply, announced2: PostReply)
    requires FetchAll(commentPages, CommentsPerPage).Some?
    requires Resolve(FetchAll(commentPages, CommentsPerPage).value.items).Unlinked?
    requires created.iid.Some? && announced.status != 201
    ensures SyncIssue(issue, commentPages, created, announced, notePages, status).Failed?
    ensures SyncIssue(issue, commentPages, created, announced, notePages, status).calls[0]
            == CreateIssue(issue.title, Description(issue))
    ensures var again := SyncIssue(issue, commentPages, created2, announced2, notePages, status);
            |again.calls| > 0 && again.calls[0] == CreateIssue(issue.title, Description(issue))
  {
    UnlinkedIssueIsCreatedFirst(issue, commentPages, created, announced, notePages, status);
    UnlinkedIssueIsCreatedFirst(issue, commentPages, created2, announced2, notePages, status);
  }
}

=== FILE: text.dfy ===
/** String primitives with the exact semantics of the Python built-ins the
    synchroniser relies on: `str.split("\n")`, `str.replace`, `str.endswith`,
    `str(int)` and `str.upper()` on ASCII text. */
module Text {

  predicate IsDigit(c: char) {
    '0' <= c <= '9'
  }

  predicate AllDigits(s: string) {
    forall i :: 0 <= i < |s| ==> IsDigit(s[i])
  }

  predicate HasNewline(s: string) {
    exists i :: 0 <= i < |s| && s[i] == '\n'
  }

  predicate HasCR(s: string) {
    exists i :: 0 <= i < |s| && s[i] == '\r'
  }

  predicate StartsWith(s: string, prefix: string) {
    |prefix| <= |s| && s[..|prefix|] == prefix
  }

  predicate EndsWith(s: string, suffix: string) {
    |suffix| <= |s| && s[|s| - |suffix|..] == suffix
  }

  /** The pieces joined back together with '\n' between them. */
  function Join(pieces: seq<string>): string
    decreases |pieces|
  {
    if |pieces| == 0 then ""
    else if |pieces| == 1 then pieces[0]
    else pieces[0] + "\n" + Join(pieces[1..])
  }

  /** Python's `s.split("\n")`: the text between consecutive newlines, so a text
      with k newlines has k + 1 lines and the empty text has one empty line. */
  function Lines(s: string): (r: seq<string>)
    ensures |r| >= 1
    decreases |s|
  {
    if |s| == 0 then [""]
    else if s[0] == '\n' then [""] + Lines(s[1..])
    else
      var rest := Lines(s[1..]);
      [[s[0]] + rest[0]] + rest[1..]
  }

  /** Splitting and joining are inverse: the lines hold no newline, and
      joining them with newlines gives back the text. */
  lemma {:induction false} LinesJoin(s: string)
    ensures forall i :: 0 <= i < |Lines(s)| ==> !HasNewline(Lines(s)[i])
    ensures Join(Lines(s)) == s
    decreases |s|
  {
    if |s| > 0 {
      LinesJoin(s[1..]);
      var rest := Lines(s[1..]);
      if s[0] == '\n' {
        assert Lines(s)[1..] == rest;
        assert [s[0]] + s[1..] == s;
      } else {
        var first := [s[0]] + rest[0];
        assert !HasNewline(first) by {
          forall k | 0 <= k < |first| ensures first[k] != '\n' {
            if k > 0 { assert first[k] == rest[0][k - 1]; }
          }
        }
        assert Lines(s)[1..] == rest[1..];
        if |rest| > 1 {
          assert Join(rest) == rest[0] + "\n" + Join(rest[1..]);
          assert Join(Lines(s)) == first + "\n" + Join(rest[1..]);
        }
        assert [s[0]] + s[1..] == s;
      }
    }
  }

  /** A newline splits the text into the lines before it and the lines after it. */
  lemma {:induction false} LinesAround(a: string, b: string)
    ensures Lines(a + "\n" + b) == Lines(a) + Lines(b)
    decreases |a|
  {
    if |a| == 0 {
      assert a + "\n" + b == "\n" + b;
      assert ("\n" + b)[1..] == b;
    } else {
      assert (a + "\n" + b)[1..] == a[1..] + "\n" + b;
      assert (a + "\n" + b)[0] == a[0];
      LinesAround(a[1..], b);
    }
  }

  /** Text without a newline in front of `s` becomes part of its first line. */
  lemma {:induction false} LinesPrefixed(p: string, s: string)
    requires !HasNewline(p)
    ensures Lines(p + s) == [p + Lines(s)[0]] + Lines(s)[1..]
    decreases |p|
  {
    if |p| > 0 {
      assert p[0] != '\n';
      assert (p + s)[0] == p[0];
      assert (p + s)[1..] == p[1..] + s;
      assert !HasNewline(p[1..]) by {
        forall i | 0 <= i < |p[1..]| ensures p[1..][i] != '\n' {
          assert p[1..][i] == p[i + 1];
        }
      }
      LinesPrefixed(p[1..], s);
      assert [p[0]] + (p[1..] + Lines(s)[0]) == p + Lines(s)[0];
    } else {
      assert p + s == s;
      assert p + Lines(s)[0] == Lines(s)[0];
      assert Lines(s) == [Lines(s)[0]] + Lines(s)[1..];
    }
  }

  /** A text without newlines is a single line. */
  lemma SingleLine(s: string)
    requires !HasNewline(s)
    ensures Lines(s) == [s]
  {
    LinesPrefixed(s, "");
    assert s + "" == s;
  }

  lemma NoNewlineConcat(a: string, b: string)
    requires !HasNewline(a) && !HasNewline(b)
    ensures !HasNewline(a + b)
  {
    forall k | 0 <= k < |a + b| ensures (a + b)[k] != '\n' {
      if k < |a| { assert (a + b)[k] == a[k]; } else { assert (a + b)[k] == b[k - |a|]; }
    }
  }

  lemma DigitsNoNewline(d: string)
    requires AllDigits(d)
    ensures !HasNewline(d)
  {
  }

  /** Two single-line texts joined by a newline are exactly two lines. */
  lemma TwoLines(a: string, b: string)
    requires !HasNewline(a) && !HasNewline(b)
    ensures Lines(a + "\n" + b) == [a, b]
  {
    LinesAround(a, b);
    SingleLine(a);
    SingleLine(b);
  }

  /** Python's `s.replace('\r', '')`. */
  function StripCR(s: string): (r: string)
    ensures !HasCR(r)
    ensures |r| <= |s|
    ensures !HasCR(s) ==> r == s
    decreases |s|
  {
    if |s| == 0 then ""
    else if s[0] == '\r' then StripCR(s[1..])
    else [s[0]] + StripCR(s[1..])
  }

  lemma {:induction false} StripCRAppend(a: string, b: string)
    ensures StripCR(a + b) == StripCR(a) + StripCR(b)
    decreases |a|
  {
    if |a| == 0 {
      assert a + b == b;
    } else {
      assert (a + b)[0] == a[0];
      assert (a + b)[1..] == a[1..] + b;
      StripCRAppend(a[1..], b);
    }
  }

  /** Each CR is deleted and the texts around it are kept: with
      `StripCR`'s own contract on texts without CR, this fixes the result on
      every input. */
  lemma StripCRSplits(a: string, b: string)
    ensures StripCR(a + "\r" + b) == StripCR(a) + StripCR(b)
  {
    StripCRAppend(a + "\r", b);
    StripCRAppend(a, "\r");
  }

  /** Python's `s.replace("\r\n", "\n")`: every occurrence of CR LF, found left
      to right without overlap, becomes a single LF. */
  function ReplaceCRLF(s: string): (r: string)
    ensures |r| <= |s|
    decreases |s|
  {
    if |s| == 0 then ""
    else if |s| >= 2 && s[0] == '\r' && s[1] == '\n' then "\n" + ReplaceCRLF(s[2..])
    else [s[0]] + ReplaceCRLF(s[1..])
  }

  /** Replacing CR LF by LF only ever deletes carriage returns: the text seen
      with carriage returns ignored is unchanged. */
  lemma {:induction false} ReplaceCRLFKeepsText(s: string)
    ensures StripCR(ReplaceCRLF(s)) == StripCR(s)
    decreases |s|
  {
    if |s| == 0 {
    } else if |s| >= 2 && s[0] == '\r' && s[1] == '\n' {
      ReplaceCRLFKeepsText(s[2..]);
      StripCRAppend("\n", ReplaceCRLF(s[2..]));
      assert s[1..][1..] == s[2..];
    } else {
      ReplaceCRLFKeepsText(s[1..]);
      StripCRAppend([s[0]], ReplaceCRLF(s[1..]));
    }
  }

  /** A text without carriage returns is kept verbatim. */
  lemma {:induction false} ReplaceCRLFNoCR(s: string)
    requires !HasCR(s)
    ensures ReplaceCRLF(s) == s
    decreases |s|
  {
    if |s| > 0 {
      assert s[0] != '\r';
      assert !HasCR(s[1..]) by {
        forall i | 0 <= i < |s[1..]| ensures s[1..][i] != '\r' {
          assert s[1..][i] == s[i + 1];
        }
      }
      ReplaceCRLFNoCR(s[1..]);
      assert [s[0]] + s[1..] == s;
    }
  }

  /** No carriage return is directly followed by a line feed. */
  predicate NoCRLF(s: string) {
    forall i :: 0 <= i < |s| - 1 ==> !(s[i] == '\r' && s[i + 1] == '\n')
  }

  /** A text without a CR LF pair is kept verbatim. */
  lemma {:induction false} ReplaceCRLFNoPair(s: string)
    requires NoCRLF(s)
    ensures ReplaceCRLF(s) == s
    decreases |s|
  {
    if |s| > 0 {
      assert !(|s| >= 2 && s[0] == '\r' && s[1] == '\n');
      assert NoCRLF(s[1..]) by {
        forall i | 0 <= i < |s[1..]| - 1 ensures !(s[1..][i] == '\r' && s[1..][i + 1] == '\n') {
          assert s[1..][i] == s[i + 1] && s[1..][i + 1] == s[i + 2];
        }
      }
      ReplaceCRLFNoPair(s[1..]);
      assert [s[0]] + s[1..] == s;
    }
  }

  /** Each CR LF pair becomes one LF and the texts around it are replaced on
      their own: with `ReplaceCRLFNoPair`, this fixes the result of every
      input, splitting at its first pair. */
  lemma {:induction false} ReplaceCRLFSplits(a: string, b: string)
    ensures ReplaceCRLF(a + "\r\n" + b) == ReplaceCRLF(a) + "\n" + ReplaceCRLF(b)
    decreases |a|
  {
    var pair := "\r\n";
    var s := a + pair + b;
    if |a| == 0 {
      assert s == pair + b;
      assert s[2..] == b;
    } else if |a| == 1 && a[0] == '\r' {
      assert s[1..] == pair + b;
      assert s[1..][2..] == b;
      assert ReplaceCRLF(s[1..]) == "\n" + ReplaceCRLF(b);
      assert ReplaceCRLF(s) == [s[0]] + ReplaceCRLF(s[1..]);
    } else {
      CRLFSplitStep(a, b);
    }
  }

  /** The inductive step of `ReplaceCRLFSplits`: the first one or two
      characters of `a` are handled the same way in `a` and in the whole. */
  lemma {:induction false} CRLFSplitStep(a: string, b: string)
    requires |a| >= 2 || (|a| == 1 && a[0] != '\r')
    ensures ReplaceCRLF(a + "\r\n" + b) == ReplaceCRLF(a) + "\n" + ReplaceCRLF(b)
    decreases |a|, 0
  {
    var s := a + "\r\n" + b;
    assert s[0] == a[0];
    if |a| >= 2 && a[0] == '\r' && a[1] == '\n' {
      assert s[1] == '\n';
      assert s[2..] == a[2..] + "\r\n" + b;
      ReplaceCRLFSplits(a[2..], b);
    } else {
      assert !(s[0] == '\r' && s[1] == '\n');
      assert s[1..] == a[1..] + "\r\n" + b;
      ReplaceCRLFSplits(a[1..], b);
    }
  }


  function DigitChar(d: nat): (c: char)
    requires d < 10
    ensures IsDigit(c)
  {
    ['0', '1', '2', '3', '4', '5', '6', '7', '8', '9'][d]
  }

  function DigitValue(c: char): nat
    requires IsDigit(c)
  {
    (c as int - '0' as int) as nat
  }

  /** Python's `str(n)` for a non-negative integer: its decimal digits, most
      significant first, with no leading zero. */
  function IdString(n: nat): (r: string)
    ensures |r| >= 1 && AllDigits(r)
    ensures r[0] == '0' ==> r == "0"
    decreases n
  {
    if n < 10 then [DigitChar(n)] else IdString(n / 10) + [DigitChar(n % 10)]
  }

  /** The decimal value of a digit text, used to prove `IdStringInjective`. */
  function ParseNat(s: string): nat
    requires AllDigits(s)
    decreases |s|
  {
    if |s| == 0 then 0 else ParseNat(s[..|s| - 1]) * 10 + DigitValue(s[|s| - 1])
  }

  lemma DigitRoundTrip(d: nat)
    requires d < 10
    ensures DigitValue(DigitChar(d)) == d
  {
  }

  /** Parsing the decimal text of `n` gives back `n`. */
  lemma {:induction false} ParseIdString(n: nat)
    ensures ParseNat(IdString(n)) == n
    decreases n
  {
    DigitRoundTrip(n % 10);
    if n >= 10 {
      var s := IdString(n);
      assert s[..|s| - 1] == IdString(n / 10);
      ParseIdString(n / 10);
    }
  }

  /** Distinct numbers have distinct decimal texts. */
  lemma IdStringInjective(a: nat, b: nat)
    ensures IdString(a) == IdString(b) <==> a == b
  {
    if IdString(a) == IdString(b) {
      ParseIdString(a);
      ParseIdString(b);
    }
  }

  /** Python's `str.upper()` restricted to ASCII letters. */
  function Upper(s: string): string {
    seq(|s|, i requires 0 <= i < |s| => if 'a' <= s[i] <= 'z' then (s[i] as int - 32) as char else s[i])
  }
}

=== FILE: wrappers.dfy ===
/** Failure-carrying values used throughout the model. */
module Wrappers {

  /** A value that may be absent: JSON `null`, a missing key, or "nothing found". */
  datatype Option<+T> = None | Some(value: T) {

    /** The wrapped value, or `default` when absent (Python's `x or default`). */
    function GetOr(default: T): T {
      match this
      case Some(v) => v
      case None => default
    }
  }

  /** Either a successfully built value or the error that was raised instead. */
  datatype Result<+R, +E> = Success(value: R) | Failure(error: E)
}
